=== FILE: README.md ===
# Dafny model of the data pages: WWII death estimates, movie filter, tesseract

This project models the data logic behind three pages of a Streamlit
course app and proves properties of it.

- **WWII human impact** (`hw4/human_impact.py`), the main part:
  - the death-count text parser `_parse_death_text`, with its `"--"`
    sentinel, its shorthand ranges such as `"3-4,000,000"` and its
    reordering of the two ends;
  - the label formatter `_format_range`;
  - the per-country derivation in `_load_df`: midpoints, civilian bounds
    by clamped subtraction, the 1939 population lookup and the labels;
  - `scale_values`, which turns estimates into absolute counts, deaths per
    100,000 people or a percentage of the population;
  - the selection of the countries the animation shows: filter, sort
    descending, keep `n`, re-sort ascending;
  - the `RAW_DATA` and `POP_1939` tables. The rows of Germany and French
    Indochina are derived in full. For China and Greece only the military
    text is parsed.
- **Movie scatter plot** (`hw2/showing_data.py`): the year and vote
  filter, the `max_points` most voted movies, and the year groups with
  their `"start-end"` labels.
- **Tesseract** (`hw3/hypercube.py`): the 16 vertices of the 4-dimensional
  hypercube and the edge loops, proved to yield the 32 pairs of indices
  that are one bit apart, in lexicographic order.

Modules, one per file:

- `Wrappers`: `Option` and `Result`.
- `Text`: `strip`, `replace(c, "")` and the first index of a character.
- `Decimal`: digit strings, `str(n)` and `f"{n:,}"`.
- `DeathText`: the parser.
- `RangeLabel`: the labels.
- `CountryTable`: `_load_df`.
- `Narrative`: scaling and selection.
- `Ranking`: the sort-and-head steps shared by both pages.
- `WarData`: the fixtures and their worked rows.
- `Movies`: the movie filter.
- `Tesseract`: the hypercube.

Python floats are modelled as exact reals. Death counts are
non-negative whole numbers in the data, and every value the parser
produces is an integer or an integer scaled by a power of ten. Parse
errors are values of a `Result`: `float()` raising `ValueError` aborts
`_load_df`, so the load returns the error of the first row that fails.

## Model

| member | source | states |
|---|---|---|
| DeathText.ParseDeathText | hw4/human_impact.py:96-119 | The result is "no estimate" exactly when the stripped text is empty or "--". A present result always has 0 <= lo <= hi. A text without a hyphen parses exactly when, once spaces and commas are removed, it is a digit string, and then lo = hi = its value; otherwise the error names that comma-free text. A text with a hyphen, once stripped and without spaces, is the pair of the parts before and after its first hyphen, with that pair's error if it fails. |
| DeathText.ParseCompact | hw4/human_impact.py:101-119 | Without a hyphen the text is one number read after removing commas; if that fails, the error names the comma-free text. With a hyphen, it is the pair cut at the first hyphen. |
| DeathText.ParsePair | hw4/human_impact.py:107-119 | The pair succeeds exactly when both ends read. It is the two end values in ascending order, whichever order the text gives them in. The left end is read first, so its error is returned when it fails. Otherwise the error names the comma-free right end. |
| DeathText.ReadCount | hw4/human_impact.py:104 | A number reads exactly when it is a non-empty digit string, and then it is the number those digits denote. Otherwise the error names the text. |
| DeathText.Expand | hw4/human_impact.py:110-112 | A shorthand left end no longer than the right end's digit count is its digits followed by zeros up to that count. A longer one is its value divided by ten to the excess length. Either way it is never negative. |
| DeathText.LeftEnd | hw4/human_impact.py:110-114 | In shorthand, a left end no longer than the right end's digits reads as its digits padded with zeros to that length; a longer one is its value divided by ten to the excess length. Outside shorthand it is read on its own once its commas are removed. |
| Decimal.ValueAppendZeros | hw4/human_impact.py:112 | Appending k zeros to a digit string multiplies its value by 10^k. |
| Text.Strip | hw4/human_impact.py:97 | `strip()` leaves no whitespace at either end, is empty exactly when the text is all whitespace, and leaves an already trimmed text unchanged. |
| Text.Remove | hw4/human_impact.py:101 | `replace(c, "")` leaves no `c`, is never longer, and changes nothing when there is no `c`. |
| Text.IndexOf | hw4/human_impact.py:107 | The cut of `split("-", 1)` is at the first hyphen: no hyphen comes before it, and it is inside the text exactly when the text has a hyphen. |
| Text.StripSlice | hw4/human_impact.py:97 | `strip()` keeps a slice of the text and cuts only whitespace off either side. |
| Text.RemoveCounts | hw4/human_impact.py:101 | `replace(c, "")` keeps every other character as often as it occurs, and no `c`. |
| Text.RemoveSingle | hw4/human_impact.py:101 | On one character, `replace(c, "")` drops it exactly when it is `c`. With `RemoveAppend`, this fixes the result on every string. |
| Text.RemoveAppend | hw4/human_impact.py:101 | `replace(c, "")` on a concatenation is the concatenation of the two results. |
| Decimal.NatToString | hw2/showing_data.py:85-89 | `str(n)` is a canonical digit string, with no superfluous leading zero, that reads back as `n`. |
| Decimal.NatToStringValue | hw2/showing_data.py:85-89 | Every canonical digit string is `str` of its value, so `str(n)` is the only way `n` is written. |
| Decimal.Grouped | hw4/human_impact.py:126-127 | `f"{n:,}"` starts and ends with a digit and holds only digits and commas. |
| Decimal.UngroupGrouped | hw4/human_impact.py:126-127 | Removing the commas from `f"{n:,}"` gives `str(n)`. |
| Decimal.GroupedComma | hw4/human_impact.py:126-127 | `f"{n:,}"` has a comma exactly when n >= 1000. |
| Decimal.GroupedShort | hw4/human_impact.py:126-127 | Below 1,000, `f"{n:,}"` is `str(n)`. |
| Decimal.GroupedThousands | hw4/human_impact.py:126-127 | `f"{q*1000 + r:,}"`, for q >= 1 and r < 1000, is `f"{q:,}"`, a comma, then r as three zero-padded digits. |
| Decimal.Pad3 | hw4/human_impact.py:126-127 | A group after a comma is three digits that read back as the group's value. |
| Decimal.FormatInt | hw4/human_impact.py:126-127 | `f"{i:,}"` is non-empty and starts with a minus sign exactly when i < 0, else with a digit. The rest is `f"{abs(i):,}"`, pinned down by the `Grouped` lemmas. |
| DeathText.ParseGroupedNumber | hw4/human_impact.py:103-105 | A number written with thousands commas parses back to exactly that number at both ends. |
| DeathText.ParseGroupedRange | hw4/human_impact.py:107-119 | Two grouped numbers around a hyphen parse to (min, max) of the two, unless the shorthand rule applies. |
| DeathText.ParseShorthandRange | hw4/human_impact.py:107-119 | A left end of at most three digits before a right end with commas stands for its digits padded with zeros to the right end's length. The result is the ordered pair. |
| DeathText.ParseRangeSymmetric | hw4/human_impact.py:116-119 | Swapping the two ends of a range, when neither order is shorthand, parses to the same bounds. |
| RangeLabel.Trunc | hw4/human_impact.py:126 | `int(x)` truncates toward zero: it lies within 1 of x, on the side of zero. |
| RangeLabel.FormatRange | hw4/human_impact.py:122-127 | The label is "Unknown" exactly when an end is missing. Otherwise it starts with a digit or a minus sign. |
| RangeLabel.LabelOfCount | hw4/human_impact.py:125-126 | Equal ends give the single number with thousands commas. |
| RangeLabel.LabelOfRange | hw4/human_impact.py:127 | Different ends give "lo to hi", both grouped, in the order given. |
| RangeLabel.LabelReadsBack | hw4/human_impact.py:96-127 | The label of a non-negative point estimate parses back to the estimate with its fraction dropped. |
| RangeLabel.BoundsLabel | hw4/human_impact.py:176-178 | The label of a parsed estimate is "Unknown" exactly when the estimate is absent. |
| CountryTable.Midpoint | hw4/human_impact.py:137-146 | The average is equally far from both ends and lies between them. |
| CountryTable.EstimateOf | hw4/human_impact.py:137-146 | An average exists exactly when the bounds do, and twice it is their sum. |
| CountryTable.Surplus | hw4/human_impact.py:157-158 | `max(0, total - military)`: non-negative, at least the difference, and equal to it or to zero. |
| CountryTable.CivilianBounds | hw4/human_impact.py:148-159 | The civilian bounds are non-negative and ordered when their inputs are. They enclose the clamped difference of every military and total count within their bounds. |
| CountryTable.CivilianTightest | hw4/human_impact.py:157-158 | Each civilian bound is reached by some pair of counts, so no narrower interval encloses them all. |
| CountryTable.CivilianOf | hw4/human_impact.py:148-159 | The civilian estimate exists exactly when both the military and the total estimates do. |
| CountryTable.DeriveRecord | hw4/human_impact.py:133-181 | A row derives exactly when both texts parse. Otherwise the error is the military text's when that fails, else the total text's. The record keeps the country and texts and looks up the population. The military and total estimates are the midpoints of the parsed texts, present exactly when a text is not a sentinel. The civilian estimate is the midpoint of the civilian bounds of the two, present when both are. Every estimate is valid. Each label is the label of its parsed bounds, "Unknown" exactly when they are absent. |
| CountryTable.DeriveTotalOnly | hw4/human_impact.py:133-181 | A row with no military figure and a known total gets the total's midpoint, no military or civilian estimate, and "Unknown" labels for both. |
| CountryTable.DeriveKnown | hw4/human_impact.py:133-181 | Two known estimates give their midpoints and the midpoint of the derived civilian bounds. |
| CountryTable.LoadTable | hw4/human_impact.py:131-181 | The load succeeds exactly when every row derives. It then holds one record per row, in order, each the derivation of its row. |
| CountryTable.LoadTableFirstError | hw4/human_impact.py:133-135 | A failed load reports the error of the first row that fails, every earlier row having derived. |
| Narrative.Factor | hw4/human_impact.py:290-294 | The factor times the population is 100,000 per 100k people and 100 for a percentage. |
| Narrative.ScaleValues | hw4/human_impact.py:278-294 | A triple exists exactly when the average does and the mode is absolute or the population is positive. Absolute mode passes (avg, lo, hi) through. Scaling keeps lo <= avg <= hi and keeps a valid low end non-negative. |
| Narrative.UnscaleRoundTrip | hw4/human_impact.py:290-294 | A scaled triple times the population over the mode's unit is the original triple. |
| Narrative.PercentIsPer100kOverThousand | hw4/human_impact.py:290-294 | A percentage of the population is the deaths per 100k divided by 1,000. |
| Narrative.Pool | hw4/human_impact.py:296-324 | The filtered rows are exactly the records with all three averages, a population when the mode scales by it, and a focus value. Each becomes its scaled animation row, as many times as the table holds the record. |
| Narrative.Select | hw4/human_impact.py:324-330 | The shown rows are ascending by focus value and number min(n, pool size). They are drawn from the pool, and each outranks every pool row left out. |
| Ranking.SortDesc | hw4/human_impact.py:326 | A descending sort is a permutation, ordered by the key. |
| Ranking.SortAsc | hw4/human_impact.py:328 | An ascending sort is a permutation, ordered by the key. |
| Ranking.Head | hw4/human_impact.py:327 | `head(n)` keeps the first min(n, length) elements, unchanged. |
| Ranking.TopSplit | hw4/human_impact.py:326-327 | After a descending sort, the kept and dropped parts together are the input, and every kept element ranks at least as high as every dropped one. |
| Ranking.TopOutranks | hw2/showing_data.py:83 | The first n after a descending sort outrank every element left out. |
| WarData.PopulationsCover | hw4/human_impact.py:9-93 | Every country of the raw data has a 1939 population. |
| WarData.UnknownText | hw4/human_impact.py:98-99 | "--" parses to no estimate. |
| WarData.GermanyRecord | hw4/human_impact.py:26 | Germany's row derives to military 5,533,000 and total 6.6 to 8.8 million. Its civilian bounds are 1,067,000 to 3,267,000 with midpoint 2,167,000, and its population is 69 million. |
| WarData.IndochinaRecord | hw4/human_impact.py:25 | French Indochina's row derives to no military or civilian estimate, both labelled "Unknown", total deaths of 1 to 1.5 million with midpoint 1,250,000, and a population of 24 million. |
| WarData.ChinaMilitary | hw4/human_impact.py:17 | "3-4,000,000" parses to 3,000,000 to 4,000,000. |
| WarData.IndochinaTotal | hw4/human_impact.py:25 | "1-1,500,000" parses to 1,000,000 to 1,500,000. |
| WarData.GreeceMilitary | hw4/human_impact.py:27 | "20,000-35,000" parses to 20,000 to 35,000. |
| Movies.Window | hw2/showing_data.py:78-81 | Every kept movie was released within the year range, both ends included, and has at least `min_votes` votes. Every such movie is kept, as many times as the input holds it, and nothing else is. |
| Movies.MostVoted | hw2/showing_data.py:83 | At most `max_points` movies are kept, in descending vote count. Each has at least as many votes as any filtered movie left out. |
| Movies.FilterMovies | hw2/showing_data.py:78-89 | The plotted points number min(max_points, filtered). Each is in the window and tagged with its own year group, in descending vote count. Their movies are drawn from the filtered rows, and each has at least as many votes as any filtered movie left out. |
| Movies.MoviesOfPoints | hw2/showing_data.py:84-89 | Tagging movies with their year groups keeps the movies themselves, in order. |
| Movies.BinStart | hw2/showing_data.py:84 | The year group's start is a multiple of the group size, and the year lies in its span. |
| Movies.BinStartUnique | hw2/showing_data.py:84 | No other multiple of the group size has a span holding the year. |
| Movies.BinLabelReadsBack | hw2/showing_data.py:85-89 | The label `BinLabel`, `str(start) + "-" + str(start + size - 1)`, is the first and last year of the group around a hyphen, each reading back as itself. |
| Movies.Points | hw2/showing_data.py:84-89 | Every kept movie gets its year group and label, in order. |
| Tesseract.Vertex | hw3/hypercube.py:119-126 | Each vertex has four coordinates, each +1 or -1. |
| Tesseract.BuildVertices | hw3/hypercube.py:118-126 | The vertex loop builds the 16 vertices in index order. |
| Tesseract.VertexIndex | hw3/hypercube.py:119-126 | Coordinate k is +1 exactly for the set bits, so the index reads back from the vertex. |
| Tesseract.VerticesDistinct | hw3/hypercube.py:119-126 | Distinct indices give distinct vertices. |
| Tesseract.CountDifferences | hw3/hypercube.py:132-135 | The inner loop counts the coordinates in which two vertices differ. |
| Tesseract.BuildEdges | hw3/hypercube.py:129-138 | The edge loops record exactly the pairs i < j whose vertices differ in one coordinate, in lexicographic order. |
| Tesseract.AdjacentIffOneBit | hw3/hypercube.py:132-136 | Two vertices differ in exactly one coordinate if and only if their indices are one bit apart. |
| Tesseract.EdgeCount | hw3/hypercube.py:128-138 | The edge list of the tesseract has 32 entries. |
| Tesseract.Hypercube | hw3/hypercube.py:118-138 | The 16 vertices come in index order. The 32 edges each join indices i < j < 16 one bit apart, include every such pair, and come in lexicographic order. |

## Left out

- The Streamlit interface: widgets, columns, caching, HTML and CSS, and the
  page switcher. None of it holds logic beyond presentation.
- The browser code embedded in the pages: the D3 and Three.js animation,
  timers, layout, colours, and the tesseract's 4-dimensional rotation and
  projection, which is floating-point trigonometry.
- `load_data` of the movie page: file download, CSV reading and date
  parsing are input and output. A `Movie` is a row after its loader has
  dropped incomplete rows.
- `json.dumps` and the hand-off of rows to the browser.
- DeathText.ReadCount: only ASCII digit strings are numbers. Python's
  `float()` also accepts signs, decimal points, exponents, underscores,
  `inf` and `nan`. It also ignores whitespace other than spaces around
  each end: `"20,000\t-\t35,000"` gives (20000, 35000), but the model
  gives an error. It also accepts non-ASCII decimal digits, which
  `isdigit()` lets into the shorthand test too. None of these occur in
  the data.
- DeathText.ParseDeathText: takes a string, so the `value or ""` fallback
  for `None` is not modelled.
- RangeLabel.FormatRange: floats are exact reals, so rounding, NaN and
  infinities are not modelled.
- Narrative.ScaleValues: the scaled values are exact reals, not rounded
  floats. The `avg is None` and `pop is None` tests are modelled by
  `Option`.
- Ranking.SortDesc: no order among equal keys is stated, because pandas'
  default sort is not stable. The model sorts by insertion.
- Movies.BinStart: requires a positive group size. The page only offers
  5 and 10.
- CountryTable.LoadTable: the whole table is not proved to load. Only the
  rows of Germany and French Indochina are derived in `WarData`. For China
  and Greece only the military text is parsed.
- RangeLabel.LabelOfRange: a "lo to hi" label does not parse back, since
  the parser has no " to " form.
- Movies.BinLabelReadsBack: stated for groups starting at a non-negative
  year, whose labels have no minus sign before the hyphen.

=== FILE: country_table.dfy ===
/** The per-country table of the WWII page (`_load_df`): each raw row of
    death-count texts becomes a record of parsed bounds, midpoints, the
    civilian estimate derived from them, the 1939 population and labels. */
module CountryTable {
  import opened Wrappers
  import opened DeathText
  import opened RangeLabel
  import Text

  /** One entry of the raw data: a country and its two death-count texts. */
  datatype RawRow = RawRow(country: string, military: string, total: string)

  /** Parsed bounds of one category together with their midpoint. */
  datatype Estimate = Estimate(bounds: Bounds, avg: real)

  /** One row of the table; an absent estimate is a column of `None`s. */
  datatype CountryRecord = CountryRecord(
    country: string,
    pop: Option<int>,
    militaryText: string,
    totalText: string,
    military: Option<Estimate>,
    total: Option<Estimate>,
    civilian: Option<Estimate>,
    militaryLabel: string,
    totalLabel: string,
    civilianLabel: string)

  /** The average of the two ends, `(min + max) / 2`. */
  function Midpoint(b: Bounds): (e: Estimate)
    ensures e.bounds == b
    ensures e.avg - b.lo == b.hi - e.avg
    ensures b.lo <= b.hi ==> b.lo <= e.avg <= b.hi
  {
    Estimate(b, (b.lo + b.hi) / 2.0)
  }

  /** The estimate of a category, present exactly when its bounds are. */
  function EstimateOf(b: Option<Bounds>): (e: Option<Estimate>)
    ensures e.Some? <==> b.Some?
    ensures e.Some? ==> e.value.bounds == b.value
    ensures e.Some? ==> e.value.avg * 2.0 == b.value.lo + b.value.hi
  {
    if b.None? then None else Some(Midpoint(b.value))
  }

  /** The civilian deaths implied by one military and one total count:
      `max(0.0, total - military)`. */
  function Surplus(military: real, total: real): (r: real)
    ensures r >= 0.0 && r >= total - military
    ensures r == total - military || r == 0.0
  {
    if total - military >= 0.0 then total - military else 0.0
  }

  /** Civilian deaths as total less military, clamped at zero: the low end
      pairs the lowest total with the highest military count and the high
      end the other way round, so the bounds enclose the surplus of every
      military count and total count within their own bounds. */
  function CivilianBounds(military: Bounds, total: Bounds): (c: Bounds)
    ensures c.lo >= 0.0 && c.hi >= 0.0
    ensures military.Valid() && total.Valid() ==> c.Valid()
    ensures forall m, t :: military.lo <= m <= military.hi && total.lo <= t <= total.hi ==>
      c.lo <= Surplus(m, t) <= c.hi
  {
    Bounds(Surplus(military.hi, total.lo), Surplus(military.lo, total.hi))
  }

  /** No narrower interval encloses every surplus: both civilian bounds are
      the surplus of some pair of counts within the given bounds. */
  lemma CivilianTightest(military: Bounds, total: Bounds)
    requires military.Valid() && total.Valid()
    ensures var c := CivilianBounds(military, total);
      && (exists m, t :: military.lo <= m <= military.hi && total.lo <= t <= total.hi && Surplus(m, t) == c.lo)
      && (exists m, t :: military.lo <= m <= military.hi && total.lo <= t <= total.hi && Surplus(m, t) == c.hi)
  {
    var c := CivilianBounds(military, total);
    assert Surplus(military.hi, total.lo) == c.lo;
    assert Surplus(military.lo, total.hi) == c.hi;
  }

  /** The civilian estimate exists only when both other categories do. */
  function CivilianOf(military: Option<Bounds>, total: Option<Bounds>): (c: Option<Bounds>)
    ensures c.Some? <==> military.Some? && total.Some?
  {
    if military.Some? && total.Some? then Some(CivilianBounds(military.value, total.value))
    else None
  }

  /** One row of `_load_df`: parse both texts (a malformed text is the
      error the load raises), derive the civilian estimate, look up the
      population and format the three labels. */
  function DeriveRecord(row: RawRow, pops: map<string, int>): (r: Result<CountryRecord, ParseError>)
    ensures r.Ok? <==> ParseDeathText(row.military).Ok? && ParseDeathText(row.total).Ok?
    ensures r.Err? && ParseDeathText(row.military).Err? ==> r.error == ParseDeathText(row.military).error
    ensures r.Err? && ParseDeathText(row.military).Ok? ==> r.error == ParseDeathText(row.total).error
    ensures r.Ok? ==>
      var rec := r.value;
      && rec.country == row.country
      && rec.militaryText == row.military
      && rec.totalText == row.total
      && rec.pop == Get(pops, row.country)
      && (rec.military.Some? <==> !IsSentinel(Text.Strip(row.military)))
      && (rec.total.Some? <==> !IsSentinel(Text.Strip(row.total)))
      && (rec.civilian.Some? <==> rec.military.Some? && rec.total.Some?)
      && (rec.military.Some? ==> rec.military.value.bounds.Valid())
      && (rec.total.Some? ==> rec.total.value.bounds.Valid())
      && (rec.civilian.Some? ==> rec.civilian.value.bounds.Valid())
      && (rec.militaryLabel == "Unknown" <==> rec.military.None?)
      && (rec.totalLabel == "Unknown" <==> rec.total.None?)
      && (rec.civilianLabel == "Unknown" <==> rec.civilian.None?)
    ensures r.Ok? ==>
      var military, total := ParseDeathText(row.military).value, ParseDeathText(row.total).value;
      var civilian := CivilianOf(military, total);
      && r.value.military == EstimateOf(military)
      && r.value.total == EstimateOf(total)
      && r.value.civilian == EstimateOf(civilian)
      && (civilian.Some? ==> civilian.value == CivilianBounds(military.value, total.value))
      && r.value.militaryLabel == BoundsLabel(military)
      && r.value.totalLabel == BoundsLabel(total)
      && r.value.civilianLabel == BoundsLabel(civilian)
  {
    var military :- ParseDeathText(row.military);
    var total :- ParseDeathText(row.total);
    var civilian := CivilianOf(military, total);
    Ok(CountryRecord(
      row.country,
      Get(pops, row.country),
      row.military,
      row.total,
      EstimateOf(military),
      EstimateOf(total),
      EstimateOf(civilian),
      BoundsLabel(military),
      BoundsLabel(total),
      BoundsLabel(civilian)))
  }

  /** A row whose two texts both parse to known counts gets their
      midpoints, the civilian estimate derived from them and its population. */
  lemma DeriveKnown(row: RawRow, pops: map<string, int>, military: Bounds, total: Bounds)
    requires ParseDeathText(row.military) == Ok(Some(military))
    requires ParseDeathText(row.total) == Ok(Some(total))
    ensures DeriveRecord(row, pops).Ok?
    ensures var r := DeriveRecord(row, pops).value;
      && r.pop == Get(pops, row.country)
      && r.military == Some(Midpoint(military))
      && r.total == Some(Midpoint(total))
      && r.civilian == Some(Midpoint(CivilianBounds(military, total)))
  {
  }

  /** A row with no military figure and a known total gets the total's
      midpoint, no military or civilian estimate, and "Unknown" labels for
      both. */
  lemma DeriveTotalOnly(row: RawRow, pops: map<string, int>, total: Bounds)
    requires ParseDeathText(row.military) == Ok(None)
    requires ParseDeathText(row.total) == Ok(Some(total))
    ensures DeriveRecord(row, pops).Ok?
    ensures var r := DeriveRecord(row, pops).value;
      && r.pop == Get(pops, row.country)
      && r.military == None && r.civilian == None
      && r.total == Some(Midpoint(total))
      && r.militaryLabel == "Unknown" && r.civilianLabel == "Unknown"
  {
  }

  /** `_load_df`: one record per raw row, in order; the first row with a
      malformed text aborts the load with that row's error. */
  function LoadTable(rows: seq<RawRow>, pops: map<string, int>): (r: Result<seq<CountryRecord>, ParseError>)
    ensures r.Ok? <==> forall i :: 0 <= i < |rows| ==> DeriveRecord(rows[i], pops).Ok?
    ensures r.Ok? ==> |r.value| == |rows|
    ensures r.Ok? ==> forall i :: 0 <= i < |rows| ==> DeriveRecord(rows[i], pops) == Ok(r.value[i])
  {
    MapResult(rows, row => DeriveRecord(row, pops))
  }

  /** A failed load reports the error of the first row that fails. */
  lemma LoadTableFirstError(rows: seq<RawRow>, pops: map<string, int>)
    requires LoadTable(rows, pops).Err?
    ensures exists i :: (0 <= i < |rows| && (forall j :: 0 <= j < i ==> DeriveRecord(rows[j], pops).Ok?) &&
                         DeriveRecord(rows[i], pops) == Err(LoadTable(rows, pops).error))
  {
    var f := row => DeriveRecord(row, pops);
    MapResultFirstError(rows, f);
    var i :| 0 <= i < |rows| && OkBefore(rows, f, i) && f(rows[i]) == Err(MapResult(rows, f).error);
    assert forall j :: 0 <= j < i ==> DeriveRecord(rows[j], pops).Ok? by {
      assert OkBefore(rows, f, i);
    }
  }
}

=== FILE: death_text.dfy ===
/** The death-count text parser of the WWII page (`_parse_death_text`):
    free text such as "30,000", "20,000-35,000", "3-4,000,000" or "--"
    becomes an absent estimate or a (low, high) pair. */
module DeathText {
  import opened Wrappers
  import opened Text
  import opened Decimal

  /** The two ends of an estimate. Python floats are modelled as exact reals. */
  datatype Bounds = Bounds(lo: real, hi: real) {
    /** Non-negative and in ascending order, as every parsed pair is. */
    predicate Valid() {
      0.0 <= lo <= hi
    }
  }

  /** The `ValueError` that `float()` raises, with the text it rejected. */
  datatype ParseError = MalformedNumber(text: string)

  /** The two texts that mean "no figure known". */
  predicate IsSentinel(text: string) {
    text == "" || text == "--"
  }

  /** `float(s)` on a text whose spaces and commas are already gone: the
      grammar admits a non-empty string of decimal digits. */
  function ReadCount(s: string): (r: Result<real, ParseError>)
    ensures r.Ok? <==> IsDigits(s)
    ensures r.Ok? ==> r.value == Value(s) as real && r.value >= 0.0
    ensures r.Err? ==> r.error == MalformedNumber(s)
  {
    if IsDigits(s) then Ok(Value(s) as real) else Err(MalformedNumber(s))
  }

  /** `float(left) * 10 ** e`, with `e` the digit count of the right end
      less the length of `left`: negative exponents divide. A left end no
      longer than `digits` stands for its digits followed by zeros up to
      `digits` digits; a longer one loses its excess digits as a fraction. */
  function Expand(left: string, digits: nat): (x: real)
    requires IsDigits(left)
    ensures x >= 0.0
    ensures |left| <= digits ==>
      var padded := left + Zeros(digits - |left|);
      |padded| == digits && DigitsOnly(padded) && x == Value(padded) as real
    ensures |left| > digits ==> TimesPow10(x, |left| - digits) == Value(left) as real
  {
    if |left| <= digits then Padded(left, digits)
    else Shifted(Value(left), |left| - digits)
  }

  /** `x` multiplied by 10^e. */
  function TimesPow10(x: real, e: nat): real {
    x * Pow10(e) as real
  }

  /** `float(left) * 10 ** e` for `e >= 0`: the digits of `left` followed by
      `e` zeros. */
  function Padded(left: string, digits: nat): (x: real)
    requires DigitsOnly(left) && |left| <= digits
    ensures x >= 0.0
    ensures var padded := left + Zeros(digits - |left|);
      |padded| == digits && DigitsOnly(padded) && x == Value(padded) as real
  {
    var v, p := Value(left), Pow10(digits - |left|);
    MulNonNegative(v, p);
    ValueAppendZeros(left, digits - |left|);
    (v * p) as real
  }

  /** `v * 10 ** -e` for `e > 0`: `v` divided by 10^e, which 10^e times
      gives back `v`. */
  function Shifted(v: nat, e: nat): (x: real)
    ensures x >= 0.0
    ensures TimesPow10(x, e) == v as real
  {
    var p := Pow10(e) as real;
    DivNonNegative(v as real, p);
    v as real / p
  }

  lemma MulNonNegative(x: int, y: int)
    requires x >= 0 && y >= 0
    ensures x * y >= 0
  {
  }

  lemma DivNonNegative(x: real, y: real)
    requires x >= 0.0 && y > 0.0
    ensures x / y >= 0.0
  {
  }

  /** Whether the left end of "left-right" is shorthand for the leading
      digits of a number as long as the right end ("3-4,000,000"). */
  predicate Shorthand(left: string, right: string) {
    ',' in right && ',' !in left && IsDigits(left)
  }

  /** The value of the left end of "left-right". In shorthand it is scaled up
      to the digit count of the right end; otherwise it is read on its own. */
  function LeftEnd(left: string, right: string): (r: Result<real, ParseError>)
    ensures r.Ok? ==> r.value >= 0.0
    ensures var digits := |Remove(right, ',')|;
      Shorthand(left, right) && |left| <= digits ==>
        var padded := left + Zeros(digits - |left|);
        DigitsOnly(padded) && r == Ok(Value(padded) as real)
    ensures var digits := |Remove(right, ',')|;
      Shorthand(left, right) && |left| > digits ==>
        r.Ok? && TimesPow10(r.value, |left| - digits) == Value(left) as real
    ensures !Shorthand(left, right) ==> r == ReadCount(Remove(left, ','))
  {
    if Shorthand(left, right) then
      var digits := |Remove(right, ',')|;
      var x := Expand(left, digits);
      Ok(x)
    else
      ReadCount(Remove(left, ','))
  }

  /** The two ends of "left-right" in ascending order, whichever order the
      text wrote them in. */
  function ParsePair(left: string, right: string): (r: Result<Bounds, ParseError>)
    ensures r.Ok? <==> LeftEnd(left, right).Ok? && IsDigits(Remove(right, ','))
    ensures r.Ok? ==> r.value.Valid()
    ensures r.Ok? ==>
      var a := LeftEnd(left, right).value;
      var b := Value(Remove(right, ',')) as real;
      (r.value == Bounds(a, b) || r.value == Bounds(b, a))
    ensures r.Err? && LeftEnd(left, right).Err? ==> r.error == LeftEnd(left, right).error
    ensures r.Err? && LeftEnd(left, right).Ok? ==> r.error == MalformedNumber(Remove(right, ','))
  {
    var a :- LeftEnd(left, right);
    var b :- ReadCount(Remove(right, ','));
    Ok(Bounds(if a <= b then a else b, if a <= b then b else a))
  }

  /** Parses a text with no surrounding whitespace and no spaces: one number,
      or two numbers around the first hyphen. */
  function ParseCompact(t: string): (r: Result<Bounds, ParseError>)
    ensures r.Ok? ==> r.value.Valid()
    ensures '-' !in t ==>
      (r.Ok? <==> IsDigits(Remove(t, ','))) &&
      (r.Ok? ==> r.value.lo == r.value.hi == Value(Remove(t, ',')) as real) &&
      (r.Err? ==> r.error == MalformedNumber(Remove(t, ',')))
    ensures '-' in t ==> r == ParsePair(t[..IndexOf(t, '-')], t[IndexOf(t, '-') + 1..])
  {
    var h := IndexOf(t, '-');
    if h == |t| then
      var n :- ReadCount(Remove(t, ','));
      Ok(Bounds(n, n))
    else
      ParsePair(t[..h], t[h + 1..])
  }

  /** `_parse_death_text`: strip the text; the sentinels mean "unknown";
      otherwise remove all spaces and read one number or a range. */
  function ParseDeathText(value: string): (r: Result<Option<Bounds>, ParseError>)
    ensures r == Ok(None) <==> IsSentinel(Strip(value))
    ensures r.Ok? && r.value.Some? ==> r.value.value.Valid()
    ensures var t := Remove(Strip(value), ' ');
      !IsSentinel(Strip(value)) && '-' !in t ==>
        (r.Ok? <==> IsDigits(Remove(t, ','))) &&
        (r.Ok? ==> r.value == Some(Bounds(Value(Remove(t, ',')) as real, Value(Remove(t, ',')) as real))) &&
        (r.Err? ==> r.error == MalformedNumber(Remove(t, ',')))
    ensures var t := Remove(Strip(value), ' ');
      !IsSentinel(Strip(value)) && '-' in t ==>
        var h := IndexOf(t, '-');
        r == Known(ParsePair(t[..h], t[h + 1..]))
  {
    var text := Strip(value);
    if IsSentinel(text) then Ok(None)
    else Known(ParseCompact(Remove(text, ' ')))
  }

  /** A parsed pair as a known estimate, or its error. */
  function Known(p: Result<Bounds, ParseError>): (r: Result<Option<Bounds>, ParseError>)
    ensures r.Ok? <==> p.Ok?
    ensures r.Ok? ==> r.value == Some(p.value)
    ensures r.Err? ==> r.error == p.error
  {
    if p.Err? then Err(p.error) else Ok(Some(p.value))
  }

  /** Parsing a number written the way the range labels write it,
      `f"{n:,}"`, gives back exactly that number at both ends. */
  lemma ParseGroupedNumber(n: nat)
    ensures ParseDeathText(Grouped(n)) == Ok(Some(Bounds(n as real, n as real)))
  {
    GroupedTrimmed(n);
    GroupedNoSpace(n);
    UngroupGrouped(n);
    ParseUnhyphenated(Grouped(n));
  }

  /** A grouped number is already stripped and is not a sentinel. */
  lemma GroupedTrimmed(n: nat)
    ensures Strip(Grouped(n)) == Grouped(n) && !IsSentinel(Grouped(n))
  {
    assert Trimmed(Grouped(n));
  }

  /** A grouped number holds neither a space nor a hyphen. */
  lemma GroupedNoSpace(n: nat)
    ensures Remove(Grouped(n), ' ') == Grouped(n) && '-' !in Grouped(n)
  {
    assert ' ' !in Grouped(n);
    RemoveAbsent(Grouped(n), ' ');
  }

  /** A stripped, space-free text without a hyphen that reads as one
      number parses as that number at both ends. */
  lemma ParseUnhyphenated(t: string)
    requires Strip(t) == t && !IsSentinel(t) && Remove(t, ' ') == t && '-' !in t
    requires IsDigits(Remove(t, ','))
    ensures var v := Value(Remove(t, ',')) as real;
      ParseDeathText(t) == Ok(Some(Bounds(v, v)))
  {
  }

  /** "f(a)-f(b)", two grouped numbers around a hyphen, parses as the pair
      of its two sides. */
  lemma ParseGroupedText(a: nat, b: nat)
    ensures ParseDeathText(Grouped(a) + "-" + Grouped(b)) ==
      Known(ParsePair(Grouped(a), Grouped(b)))
  {
    var ga, gb := Grouped(a), Grouped(b);
    var t := ga + "-" + gb;
    RangeTextTrimmed(ga, gb);
    RangeTextNoSpace(ga, gb);
    RemoveAbsent(t, ' ');
    RangeTextSplit(ga, gb);
    ParseHyphenated(t);
  }

  lemma RangeTextTrimmed(ga: string, gb: string)
    requires |ga| > 0 && IsDigit(ga[0])
    requires |gb| > 0 && IsDigit(gb[|gb| - 1])
    ensures Strip(ga + "-" + gb) == ga + "-" + gb
    ensures !IsSentinel(ga + "-" + gb)
  {
    var t := ga + "-" + gb;
    assert t[0] == ga[0] && t[|t| - 1] == gb[|gb| - 1];
    assert Trimmed(t);
  }

  lemma RangeTextNoSpace(ga: string, gb: string)
    requires forall i :: 0 <= i < |ga| ==> ga[i] == ',' || IsDigit(ga[i])
    requires forall i :: 0 <= i < |gb| ==> gb[i] == ',' || IsDigit(gb[i])
    ensures ' ' !in ga + "-" + gb
  {
    var t := ga + "-" + gb;
    forall i | 0 <= i < |t| ensures t[i] != ' ' {
      if i < |ga| { assert t[i] == ga[i]; }
      else if i > |ga| { assert t[i] == gb[i - |ga| - 1]; }
    }
  }

  lemma RangeTextSplit(ga: string, gb: string)
    requires forall i :: 0 <= i < |ga| ==> ga[i] == ',' || IsDigit(ga[i])
    ensures var t := ga + "-" + gb;
      && '-' in t
      && t[..IndexOf(t, '-')] == ga
      && t[IndexOf(t, '-') + 1..] == gb
  {
    var t := ga + "-" + gb;
    assert '-' !in ga;
    IndexOfJoin(ga, '-', gb);
    assert t[|ga|] == '-';
    assert t[..|ga|] == ga;
    assert t[|ga| + 1..] == gb;
  }

  /** A stripped, space-free text with a hyphen parses as the pair around
      its first hyphen. */
  lemma ParseHyphenated(t: string)
    requires Strip(t) == t && !IsSentinel(t) && Remove(t, ' ') == t && '-' in t
    ensures var h := IndexOf(t, '-');
      ParseDeathText(t) == Known(ParsePair(t[..h], t[h + 1..]))
  {
  }

  /** Once both ends are read, the pair is the smaller then the larger. */
  lemma PairOfEnds(left: string, right: string, x: real, y: real)
    requires LeftEnd(left, right) == Ok(x)
    requires ReadCount(Remove(right, ',')) == Ok(y)
    ensures ParsePair(left, right) ==
      Ok(Bounds(if x <= y then x else y, if x <= y then y else x))
  {
  }

  /** The pair of two grouped numbers outside the shorthand rule. */
  lemma PairOfGrouped(a: nat, b: nat)
    requires a >= 1000 || b < 1000
    ensures ParsePair(Grouped(a), Grouped(b)) ==
      Ok(Bounds(if a <= b then a as real else b as real,
                if a <= b then b as real else a as real))
  {
    NotShorthandGrouped(a, b);
    ReadGrouped(a);
    ReadGrouped(b);
    PairOfEnds(Grouped(a), Grouped(b), a as real, b as real);
  }

  lemma NotShorthandGrouped(a: nat, b: nat)
    requires a >= 1000 || b < 1000
    ensures !Shorthand(Grouped(a), Grouped(b))
  {
    GroupedComma(a);
    GroupedComma(b);
  }

  /** A grouped number reads back, once its commas are gone, as itself. */
  lemma ReadGrouped(n: nat)
    ensures ReadCount(Remove(Grouped(n), ',')) == Ok(n as real)
  {
    UngroupGrouped(n);
  }

  /** A range of two grouped numbers, outside the shorthand rule (the left
      end has a comma or the right end has none), parses to its two numbers
      in ascending order, whichever order the text gives them in. */
  lemma ParseGroupedRange(a: nat, b: nat)
    requires a >= 1000 || b < 1000
    ensures ParseDeathText(Grouped(a) + "-" + Grouped(b)) ==
      Ok(Some(Bounds(if a <= b then a as real else b as real,
                     if a <= b then b as real else a as real)))
  {
    ParseGroupedText(a, b);
    PairOfGrouped(a, b);
  }

  /** The number "a" stands for in the shorthand range "a-f(b)": `a` followed
      by zeros up to the digit count of `b`. */
  function ShorthandLeft(a: nat, b: nat): real
    requires |NatToString(a)| <= |NatToString(b)|
  {
    (a * Pow10(|NatToString(b)| - |NatToString(a)|)) as real
  }

  lemma ShorthandLeftExpands(a: nat, b: nat)
    requires |NatToString(a)| <= |NatToString(b)|
    ensures Expand(NatToString(a), |NatToString(b)|) == ShorthandLeft(a, b)
  {
    var sa, sb := NatToString(a), NatToString(b);
    ValueAppendZeros(sa, |sb| - |sa|);
  }

  /** The pair of a short number and a grouped one: the shorthand rule. */
  lemma PairOfShorthand(a: nat, b: nat)
    requires a < 1000 <= b
    ensures |NatToString(a)| < |NatToString(b)|
    ensures var x := ShorthandLeft(a, b);
      ParsePair(Grouped(a), Grouped(b)) ==
      Ok(Bounds(if x <= b as real then x else b as real,
                if x <= b as real then b as real else x))
  {
    var sa, sb := NatToString(a), NatToString(b);
    Pow10Split(|sa| - 1);
    Pow10Split(|sb|);
    var x := ShorthandLeft(a, b);
    assert Grouped(a) == sa by {
      GroupedShort(a);
    }
    assert Shorthand(Grouped(a), Grouped(b)) by {
      GroupedComma(a);
      GroupedComma(b);
    }
    assert Remove(Grouped(b), ',') == sb by {
      UngroupGrouped(b);
    }
    assert LeftEnd(Grouped(a), Grouped(b)) == Ok(Expand(sa, |sb|));
    ShorthandLeftExpands(a, b);
    assert ReadCount(sb) == Ok(b as real);
    PairOfEnds(Grouped(a), Grouped(b), x, b as real);
  }

  /** Ten to a power below 3 is below 1,000; from 3 on it is at least 1,000. */
  lemma Pow10Split(e: nat)
    ensures e <= 2 ==> Pow10(e) <= 100
    ensures e >= 3 ==> Pow10(e) >= 1000
  {
    if e <= 2 {
      Pow10Monotone(e, 2);
    } else {
      Pow10Monotone(3, e);
    }
  }

  /** Shorthand ranges such as "3-4,000,000": a left end of at most three
      digits, against a right end with commas, stands for its digits followed
      by as many zeros as make it as long as the right end. */
  lemma ParseShorthandRange(a: nat, b: nat)
    requires a < 1000 <= b
    ensures |NatToString(a)| < |NatToString(b)|
    ensures var x := ShorthandLeft(a, b);
      ParseDeathText(Grouped(a) + "-" + Grouped(b)) ==
      Ok(Some(Bounds(if x <= b as real then x else b as real,
                     if x <= b as real then b as real else x)))
  {
    ParseGroupedText(a, b);
    PairOfShorthand(a, b);
  }

  /** Writing the two ends of a range the other way round changes nothing,
      so long as neither order triggers the shorthand rule. */
  lemma ParseRangeSymmetric(a: nat, b: nat)
    requires (a >= 1000) == (b >= 1000)
    ensures ParseDeathText(Grouped(a) + "-" + Grouped(b)) ==
            ParseDeathText(Grouped(b) + "-" + Grouped(a))
  {
    ParseGroupedRange(a, b);
    ParseGroupedRange(b, a);
  }
}

=== FILE: decimal.dfy ===
/** Decimal digit strings: reading them (`float(...)` on a digit string),
    writing them (`str(n)`), and Python's thousands grouping (`f"{n:,}"`). */
module Decimal {
  import opened Text

  predicate IsDigit(c: char) {
    '0' <= c <= '9'
  }

  /** Every character is an ASCII digit (the empty string qualifies). */
  predicate DigitsOnly(s: string) {
    forall i :: 0 <= i < |s| ==> IsDigit(s[i])
  }

  /** Python's `str.isdigit()` on ASCII text: non-empty and digits only. */
  predicate IsDigits(s: string) {
    |s| > 0 && DigitsOnly(s)
  }

  /** No superfluous leading zero: the canonical way to write a number. */
  predicate Canonical(s: string) {
    IsDigits(s) && (|s| == 1 || s[0] != '0')
  }

  function Pow10(e: nat): (r: nat)
    ensures r >= 1
  {
    if e == 0 then 1 else 10 * Pow10(e - 1)
  }

  function DigitValue(c: char): (d: nat)
    requires IsDigit(c)
    ensures d < 10
  {
    c as int - '0' as int
  }

  function DigitChar(d: nat): (c: char)
    requires d < 10
    ensures IsDigit(c) && DigitValue(c) == d
  {
    ('0' as int + d) as char
  }

  /** The number a digit string denotes, most significant digit first. */
  function Value(s: string): (n: nat)
    requires DigitsOnly(s)
    ensures n < Pow10(|s|)
    ensures |s| > 0 && s[0] != '0' ==> Pow10(|s| - 1) <= n
    decreases |s|
  {
    if s == [] then 0
    else
      var p := s[..|s| - 1];
      assert |p| > 0 ==> p[0] == s[0];
      Value(p) * 10 + DigitValue(s[|s| - 1])
  }

  /** `k` zero digits. */
  function Zeros(k: nat): (z: string)
    ensures |z| == k && DigitsOnly(z)
  {
    if k == 0 then [] else Zeros(k - 1) + "0"
  }

  /** Appending `k` zeros multiplies a digit string's value by 10^k. */
  lemma {:induction false} ValueAppendZeros(s: string, k: nat)
    requires DigitsOnly(s)
    ensures DigitsOnly(s + Zeros(k))
    ensures Value(s + Zeros(k)) == Value(s) * Pow10(k)
  {
    if k == 0 {
      assert s + Zeros(k) == s;
    } else {
      ValueAppendZeros(s, k - 1);
      var u := s + Zeros(k - 1);
      assert Zeros(k) == Zeros(k - 1) + ['0'];
      assert s + (Zeros(k - 1) + ['0']) == u + ['0'];
      ValueSnoc(u, '0');
      assert Pow10(k) == 10 * Pow10(k - 1);
      MulTen(Value(s), Pow10(k - 1));
    }
  }

  lemma MulTen(a: int, b: int)
    ensures a * b * 10 == a * (10 * b)
  {
  }

  /** Appending a digit multiplies by ten and adds the digit. */
  lemma ValueSnoc(u: string, c: char)
    requires DigitsOnly(u) && IsDigit(c)
    ensures DigitsOnly(u + [c])
    ensures Value(u + [c]) == Value(u) * 10 + DigitValue(c)
  {
    assert (u + [c])[..|u|] == u;
  }

  /** Python's `str(n)` for a non-negative integer. */
  function NatToString(n: nat): (s: string)
    ensures Canonical(s)
    ensures Value(s) == n
    decreases n
  {
    if n < 10 then [DigitChar(n)]
    else
      var p := NatToString(n / 10);
      var s := p + [DigitChar(n % 10)];
      assert s[..|s| - 1] == p;
      s
  }

  /** Reading a canonical digit string and writing the number back gives the
      same string: `NatToString` is the only way a number is written. */
  lemma {:induction false} NatToStringValue(s: string)
    requires Canonical(s)
    ensures NatToString(Value(s)) == s
    decreases |s|
  {
    var last := s[|s| - 1];
    if |s| == 1 {
      assert Value(s) == DigitValue(last) by {
        assert s[..0] == [];
      }
      DigitRoundTrip(last);
    } else {
      var p := s[..|s| - 1];
      assert p[0] == s[0];
      NatToStringValue(p);
      var q, d := Value(p), DigitValue(last);
      assert Value(s) == q * 10 + d;
      assert q >= 1 by {
        assert Pow10(|p| - 1) <= q;
      }
      NatToStringStep(q, d);
      DigitRoundTrip(last);
      assert s == p + [last];
    }
  }

  /** Appending a digit to a number of at least one digit appends it to the
      number's decimal text. */
  lemma NatToStringStep(q: nat, d: nat)
    requires q >= 1 && d < 10
    ensures NatToString(q * 10 + d) == NatToString(q) + [DigitChar(d)]
  {
    DivMod10(q, d);
  }

  lemma DigitRoundTrip(c: char)
    requires IsDigit(c)
    ensures DigitChar(DigitValue(c)) == c
  {
  }

  lemma DivMod10(q: nat, d: nat)
    requires d < 10
    ensures (q * 10 + d) / 10 == q && (q * 10 + d) % 10 == d
  {
  }

  /** Python's `str(i)` for any integer. */
  function IntToString(i: int): string {
    if i < 0 then "-" + NatToString(-i) else NatToString(i)
  }

  /** The separator written after the digit at position `k` from the right
      (position 0 is the units digit): a comma after every third digit. */
  function Separator(k: nat): string {
    if k > 0 && k % 3 == 0 then "," else ""
  }

  /** The digits of `n`, the lowest of which sits at position `k` from the
      right, each followed by its separator. */
  function GroupFrom(n: nat, k: nat): (s: string)
    ensures |s| > 0 && IsDigit(s[0])
    ensures forall i :: 0 <= i < |s| ==> s[i] == ',' || IsDigit(s[i])
    ensures k == 0 ==> s[|s| - 1] == DigitChar(n % 10)
    decreases n
  {
    if n < 10 then [DigitChar(n)] + Separator(k)
    else GroupFrom(n / 10, k + 1) + [DigitChar(n % 10)] + Separator(k)
  }

  /** Python's `f"{n:,}"` for a non-negative integer: the decimal digits of
      `n` with a comma between groups of three, counted from the right. */
  function Grouped(n: nat): (s: string)
    ensures |s| > 0 && IsDigit(s[0]) && IsDigit(s[|s| - 1])
    ensures forall i :: 0 <= i < |s| ==> s[i] == ',' || IsDigit(s[i])
  {
    GroupFrom(n, 0)
  }

  /** Removing the commas from a grouped number gives its plain digits. */
  lemma {:induction false} UngroupFrom(n: nat, k: nat)
    ensures Remove(GroupFrom(n, k), ',') == NatToString(n)
    decreases n
  {
    var sep := Separator(k);
    assert Remove(sep, ',') == [];
    if n < 10 {
      RemoveAppend([DigitChar(n)], sep, ',');
    } else {
      var g := GroupFrom(n / 10, k + 1);
      var d := [DigitChar(n % 10)];
      calc {
        Remove(GroupFrom(n, k), ',');
        Remove(g + d + sep, ',');
        { RemoveAppend(g + d, sep, ','); RemoveAppend(g, d, ','); }
        Remove(g, ',') + Remove(d, ',') + Remove(sep, ',');
        { UngroupFrom(n / 10, k + 1); }
        NatToString(n / 10) + d;
        NatToString(n);
      }
    }
  }

  /** Removing the commas from `f"{n:,}"` gives `str(n)`. */
  lemma UngroupGrouped(n: nat)
    ensures Remove(Grouped(n), ',') == NatToString(n)
  {
    UngroupFrom(n, 0);
  }

  lemma {:induction false} Pow10Monotone(a: nat, b: nat)
    requires a <= b
    ensures Pow10(a) <= Pow10(b)
    decreases b
  {
    if a < b {
      Pow10Monotone(a, b - 1);
    }
  }

  /** Python's `f"{i:,}"` for any integer: a minus sign, when negative, in
      front of the grouped magnitude. */
  function FormatInt(i: int): (s: string)
    ensures |s| > 0 && (s[0] == '-' <==> i < 0) && (i >= 0 ==> IsDigit(s[0]))
  {
    if i < 0 then "-" + Grouped(-i) else Grouped(i)
  }

  /** `f"{n:,}"` contains a comma exactly when `n` has more than three digits. */
  lemma GroupedComma(n: nat)
    ensures ',' in Grouped(n) <==> n >= 1000
  {
    if n < 1000 {
      NoCommaBelowThousand(n);
    } else {
      CommaFromThousand(n);
    }
  }

  lemma NoCommaBelowThousand(n: nat)
    requires n < 1000
    ensures ',' !in Grouped(n)
  {
    assert Separator(0) == [] && Separator(1) == [] && Separator(2) == [];
    if n >= 100 {
      assert GroupFrom(n / 100, 2) == [DigitChar(n / 100)];
      assert GroupFrom(n / 10, 1) == [DigitChar(n / 100), DigitChar(n / 10 % 10)];
      assert Grouped(n) == [DigitChar(n / 100), DigitChar(n / 10 % 10), DigitChar(n % 10)];
    } else if n >= 10 {
      assert GroupFrom(n / 10, 1) == [DigitChar(n / 10)];
      assert Grouped(n) == [DigitChar(n / 10), DigitChar(n % 10)];
    }
  }

  lemma CommaFromThousand(n: nat)
    requires n >= 1000
    ensures ',' in Grouped(n)
  {
    var m1 := n / 10;
    var m2 := m1 / 10;
    var m3 := m2 / 10;
    var hi := GroupFrom(m3, 3);
    assert Separator(3) == ",";
    assert hi[|hi| - 1] == ',';
    var g2 := GroupFrom(m2, 2);
    assert g2 == hi + [DigitChar(m2 % 10)] + Separator(2);
    assert g2[|hi| - 1] == ',';
    var g1 := GroupFrom(m1, 1);
    assert g1 == g2 + [DigitChar(m1 % 10)] + Separator(1);
    assert g1[|hi| - 1] == ',';
    assert Grouped(n) == g1 + [DigitChar(n % 10)] + Separator(0);
    assert Grouped(n)[|hi| - 1] == ',';
  }

  /** Without commas, `f"{n:,}"` is just `str(n)`. */
  lemma GroupedShort(n: nat)
    requires n < 1000
    ensures Grouped(n) == NatToString(n)
  {
    GroupedComma(n);
    UngroupGrouped(n);
  }

  /** The three digits of `r < 1000`, zero-padded: the group after a comma. */
  function Pad3(r: nat): (s: string)
    requires r < 1000
    ensures |s| == 3 && forall i :: 0 <= i < 3 ==> IsDigit(s[i])
    ensures Value(s) == r
  {
    var a, b, c := DigitChar(r / 100), DigitChar(r / 10 % 10), DigitChar(r % 10);
    ValueSnoc([], a);
    ValueSnoc([a], b);
    ValueSnoc([a, b], c);
    assert [] + [a] == [a] && [a] + [b] == [a, b] && [a, b] + [c] == [a, b, c];
    ThreeDigits(r);
    [a, b, c]
  }

  /** A number below 1000 from its hundreds, tens and units digits. */
  lemma ThreeDigits(r: nat)
    ensures (r / 100 * 10 + r / 10 % 10) * 10 + r % 10 == r
  {
    assert r / 10 / 10 == r / 100;
    assert r / 10 == r / 10 / 10 * 10 + r / 10 % 10;
    assert r == r / 10 * 10 + r % 10;
  }

  /** Separators repeat every three positions away from the units digit. */
  lemma {:induction false} GroupFromShift(q: nat, k: nat)
    requires k >= 1
    ensures GroupFrom(q, k + 3) == GroupFrom(q, k)
    decreases q
  {
    assert Separator(k + 3) == Separator(k);
    if q >= 10 {
      GroupFromShift(q / 10, k + 1);
    }
  }

  /** Digits whose lowest sits at position 3 are the grouped number followed
      by the comma that closes its lowest group. */
  lemma GroupFromThird(q: nat)
    ensures GroupFrom(q, 3) == GroupFrom(q, 0) + ","
  {
    if q >= 10 {
      GroupFromShift(q / 10, 1);
    }
  }

  /** `f"{q * 1000 + r:,}"` is `f"{q:,}"`, a comma, then the three digits of
      `r`: the grouping rule, read from the right. */
  lemma GroupedThousands(q: nat, r: nat)
    requires q >= 1 && r < 1000
    ensures Grouped(q * 1000 + r) == Grouped(q) + "," + Pad3(r)
  {
    var r2, r1, r0 := r / 100, r / 10 % 10, r % 10;
    assert ((q * 10 + r2) * 10 + r1) * 10 + r0 == q * 1000 + r;
    GroupedDigits(q, r2, r1, r0);
  }

  /** `GroupedThousands` with the three low digits given one by one. */
  lemma GroupedDigits(q: nat, d2: nat, d1: nat, d0: nat)
    requires q >= 1 && d2 < 10 && d1 < 10 && d0 < 10
    ensures Grouped(((q * 10 + d2) * 10 + d1) * 10 + d0) ==
            Grouped(q) + "," + [DigitChar(d2), DigitChar(d1), DigitChar(d0)]
  {
    var m2 := q * 10 + d2;
    var m1 := m2 * 10 + d1;
    var c2, c1, c0 := DigitChar(d2), DigitChar(d1), DigitChar(d0);
    GroupFromThird(q);
    GroupFromStep(q, d2, 2);
    GroupFromStep(m2, d1, 1);
    GroupFromStep(m1, d0, 0);
    AppendThree(GroupFrom(q, 3), c2, c1, c0);
    assert Separator(0) == [] && Separator(1) == [] && Separator(2) == [];
  }

  lemma AppendThree(s: string, x: char, y: char, z: char)
    ensures s + [x] + [y] + [z] == s + [x, y, z]
  {
  }

  /** One more low digit `d` after `m`: its text follows the text of `m`. */
  lemma GroupFromStep(m: nat, d: nat, k: nat)
    requires m >= 1 && d < 10
    ensures GroupFrom(m * 10 + d, k) == GroupFrom(m, k + 1) + [DigitChar(d)] + Separator(k)
  {
    DivMod10(m, d);
  }
}

=== FILE: movies.dfy ===
/** The filter behind the movie scatter plot: movies released within the
    chosen years and with enough votes, the `maxPoints` most voted of them,
    each tagged with the span of years it is grouped into. */
module Movies {
  import opened Decimal
  import opened Text
  import opened Ranking

  /** One movie row, after the loader has dropped incomplete rows. */
  datatype Movie = Movie(title: string, year: int, voteAverage: real, popularity: real, voteCount: int)

  /** A plotted movie with its year group. */
  datatype Point = Point(movie: Movie, binStart: int, binLabel: string)

  /** `release_year.between(lo, hi)` (both ends included) and
      `vote_count >= minVotes`. */
  predicate InWindow(m: Movie, yearLo: int, yearHi: int, minVotes: int) {
    yearLo <= m.year <= yearHi && m.voteCount >= minVotes
  }

  function Votes(m: Movie): real {
    m.voteCount as real
  }

  /** The rows that pass the year and vote filters, in their original order. */
  function Window(movies: seq<Movie>, yearLo: int, yearHi: int, minVotes: int): (w: seq<Movie>)
    ensures forall i :: 0 <= i < |w| ==> InWindow(w[i], yearLo, yearHi, minVotes)
    ensures multiset(w) <= multiset(movies)
    ensures forall i :: 0 <= i < |movies| && InWindow(movies[i], yearLo, yearHi, minVotes) ==>
      movies[i] in w
    ensures forall m :: multiset(w)[m] == (if InWindow(m, yearLo, yearHi, minVotes) then multiset(movies)[m] else 0)
  {
    if movies == [] then []
    else
      var rest := Window(movies[1..], yearLo, yearHi, minVotes);
      var w := if InWindow(movies[0], yearLo, yearHi, minVotes) then [movies[0]] + rest else rest;
      WindowCount(movies, rest, w, yearLo, yearHi, minVotes);
      assert forall i :: 0 <= i < |movies| && InWindow(movies[i], yearLo, yearHi, minVotes) ==> movies[i] in w by {
        forall i | 0 <= i < |movies| && InWindow(movies[i], yearLo, yearHi, minVotes)
          ensures movies[i] in w
        {
          if i > 0 {
            assert movies[i] == movies[1..][i - 1];
          }
        }
      }
      w
  }

  /** Filtering the first row on top of the filtered rest keeps each
      in-window movie as often as the input holds it. */
  lemma WindowCount(movies: seq<Movie>, rest: seq<Movie>, w: seq<Movie>, yearLo: int, yearHi: int, minVotes: int)
    requires |movies| > 0
    requires forall m :: multiset(rest)[m] == (if InWindow(m, yearLo, yearHi, minVotes) then multiset(movies[1..])[m] else 0)
    requires w == if InWindow(movies[0], yearLo, yearHi, minVotes) then [movies[0]] + rest else rest
    ensures multiset(w) <= multiset(movies)
    ensures forall m :: multiset(w)[m] == (if InWindow(m, yearLo, yearHi, minVotes) then multiset(movies)[m] else 0)
  {
    assert multiset(movies) == multiset{movies[0]} + multiset(movies[1..]) by {
      assert movies == [movies[0]] + movies[1..];
    }
    assert InWindow(movies[0], yearLo, yearHi, minVotes) ==> multiset(w) == multiset{movies[0]} + multiset(rest);
  }

  /** `(year // binSize) * binSize`: Python's floor division, which Dafny's
      division matches for a positive divisor. */
  function BinStart(year: int, binSize: int): (s: int)
    requires binSize > 0
    ensures s % binSize == 0
    ensures s <= year <= s + binSize - 1
  {
    var q := year / binSize;
    DivModUnique(q * binSize, binSize, q, 0);
    q * binSize
  }

  /** Division by a positive number has a unique quotient and remainder. */
  lemma DivModUnique(n: int, b: int, q: int, r: int)
    requires b > 0 && 0 <= r < b && n == q * b + r
    ensures n / b == q && n % b == r
  {
    var d := q - n / b;
    assert d * b == n % b - r;
    if d >= 1 {
      MulAtLeast(d, b);
    } else if d <= -1 {
      MulAtLeast(-d, b);
    }
  }

  lemma MulAtLeast(d: int, b: int)
    requires d >= 1 && b > 0
    ensures d * b >= b
  {
  }

  /** `str(start) + "-" + str(start + binSize - 1)`. */
  function BinLabel(start: int, binSize: int): string {
    IntToString(start) + "-" + IntToString(start + binSize - 1)
  }

  function PointOf(m: Movie, binSize: int): (p: Point)
    requires binSize > 0
    ensures p.movie == m
  {
    var start := BinStart(m.year, binSize);
    Point(m, start, BinLabel(start, binSize))
  }

  function Points(movies: seq<Movie>, binSize: int): (ps: seq<Point>)
    requires binSize > 0
    ensures |ps| == |movies|
    ensures forall i :: 0 <= i < |ps| ==> ps[i] == PointOf(movies[i], binSize)
  {
    if movies == [] then [] else [PointOf(movies[0], binSize)] + Points(movies[1..], binSize)
  }

  /** The plotted points: filter, sort by vote count (most first), keep
      `maxPoints`, then tag each with its year group. */
  function FilterMovies(movies: seq<Movie>, yearLo: int, yearHi: int, minVotes: int,
                        maxPoints: nat, binSize: int): (ps: seq<Point>)
    requires binSize > 0
    ensures var w := Window(movies, yearLo, yearHi, minVotes);
      |ps| == if maxPoints < |w| then maxPoints else |w|
    ensures forall i :: 0 <= i < |ps| ==>
      && InWindow(ps[i].movie, yearLo, yearHi, minVotes)
      && ps[i] == PointOf(ps[i].movie, binSize)
    ensures forall i, j :: 0 <= i < j < |ps| ==> ps[i].movie.voteCount >= ps[j].movie.voteCount
    ensures var w := Window(movies, yearLo, yearHi, minVotes);
      multiset(MoviesOf(ps)) <= multiset(w) && Outranks(MoviesOf(ps), w, Votes)
  {
    var w := Window(movies, yearLo, yearHi, minVotes);
    var kept := MostVoted(w, maxPoints);
    KeptInWindow(w, kept, yearLo, yearHi, minVotes);
    MoviesOfPoints(kept, binSize);
    Points(kept, binSize)
  }

  /** The movies behind a sequence of points, in order. */
  function MoviesOf(ps: seq<Point>): (ms: seq<Movie>)
    ensures |ms| == |ps| && forall i :: 0 <= i < |ps| ==> ms[i] == ps[i].movie
  {
    if ps == [] then [] else [ps[0].movie] + MoviesOf(ps[1..])
  }

  /** Tagging movies with their year groups keeps the movies themselves. */
  lemma MoviesOfPoints(ms: seq<Movie>, binSize: int)
    requires binSize > 0
    ensures MoviesOf(Points(ms, binSize)) == ms
  {
  }

  /** `sort_values("vote_count", ascending=False).head(n)`. */
  function MostVoted(w: seq<Movie>, n: nat): (kept: seq<Movie>)
    ensures |kept| == if n < |w| then n else |w|
    ensures multiset(kept) <= multiset(w)
    ensures forall i, j :: 0 <= i < j < |kept| ==> kept[i].voteCount >= kept[j].voteCount
    ensures Outranks(kept, w, Votes)
  {
    var kept := Head(SortDesc(w, Votes), n);
    TopOutranks(w, n, Votes);
    HeadSorted(SortDesc(w, Votes), n, Votes);
    VoteOrder(kept);
    kept
  }

  /** Descending by `Votes` is descending by vote count. */
  lemma VoteOrder(ms: seq<Movie>)
    requires SortedDesc(ms, Votes)
    ensures forall i, j :: 0 <= i < j < |ms| ==> ms[i].voteCount >= ms[j].voteCount
  {
    forall i, j | 0 <= i < j < |ms|
      ensures ms[i].voteCount >= ms[j].voteCount
    {
      assert Votes(ms[i]) >= Votes(ms[j]);
    }
  }

  lemma KeptInWindow(w: seq<Movie>, kept: seq<Movie>, yearLo: int, yearHi: int, minVotes: int)
    requires forall i :: 0 <= i < |w| ==> InWindow(w[i], yearLo, yearHi, minVotes)
    requires multiset(kept) <= multiset(w)
    ensures forall i :: 0 <= i < |kept| ==> InWindow(kept[i], yearLo, yearHi, minVotes)
  {
    forall i | 0 <= i < |kept|
      ensures InWindow(kept[i], yearLo, yearHi, minVotes)
    {
      assert kept[i] in multiset(w);
    }
  }

  /** The year group is the only multiple of `binSize` whose span of
      `binSize` years holds the release year. */
  lemma BinStartUnique(year: int, binSize: int, s: int)
    requires binSize > 0 && s % binSize == 0 && s <= year <= s + binSize - 1
    ensures s == BinStart(year, binSize)
  {
    var q := s / binSize;
    assert s == q * binSize;
    DivModUnique(year, binSize, q, year - s);
  }

  /** The label of a group starting at a non-negative year is the first and
      last year of the group around a hyphen, each reading back as itself. */
  lemma BinLabelReadsBack(start: nat, binSize: int)
    requires binSize > 0
    ensures var txt := BinLabel(start, binSize);
      var h := IndexOf(txt, '-');
      && h < |txt|
      && IsDigits(txt[..h]) && Value(txt[..h]) == start
      && IsDigits(txt[h + 1..]) && Value(txt[h + 1..]) == start + binSize - 1
  {
    var a, b := NatToString(start), NatToString(start + binSize - 1);
    var txt := BinLabel(start, binSize);
    assert txt == a + "-" + b;
    assert '-' !in a by {
      assert forall i :: 0 <= i < |a| ==> IsDigit(a[i]);
    }
    IndexOfJoin(a, '-', b);
    assert txt[..|a|] == a;
    assert txt[|a| + 1..] == b;
  }
}

=== FILE: narrative.dfy ===
/** The narrative view of the WWII page: each country's estimates scaled
    by the chosen narrative mode (`scale_values`), and the countries the
    animation shows — the `n` largest on the focus metric, smallest first. */
module Narrative {
  import opened Wrappers
  import opened DeathText
  import opened CountryTable
  import opened Ranking

  /** The "Narrative mode" radio options. */
  datatype Mode = Absolute | Per100k | PercentOfPopulation

  /** The "Focus metric" options. */
  datatype Metric = Total | Military | Civilian

  /** A scaled midpoint with its scaled low and high ends. */
  datatype Scaled = Scaled(value: real, lo: real, hi: real)

  /** One row of the animation: the record, its three scaled estimates and
      the scaled value of the focus metric. */
  datatype Entry = Entry(
    record: CountryRecord,
    total: Option<Scaled>,
    military: Option<Scaled>,
    civilian: Option<Scaled>,
    metricValue: real)

  function EstimateFor(r: CountryRecord, m: Metric): Option<Estimate> {
    match m
    case Total => r.total
    case Military => r.military
    case Civilian => r.civilian
  }

  /** Deaths per person scaled up to the mode's unit: per 100,000 people,
      or per 100 people (a percentage). */
  function Factor(mode: Mode, pop: int): (f: real)
    requires mode != Absolute && pop > 0
    ensures f > 0.0
    ensures f * pop as real == if mode == Per100k then 100000.0 else 100.0
  {
    if mode == Per100k then 100000.0 / pop as real else 100.0 / pop as real
  }

  /** `scale_values`: nothing for a missing estimate; the estimate itself
      in absolute mode; otherwise nothing without a positive population,
      else the estimate multiplied by the mode's factor. */
  function ScaleValues(e: Option<Estimate>, pop: Option<int>, mode: Mode): (r: Option<Scaled>)
    ensures r.Some? <==> e.Some? && (mode == Absolute || (pop.Some? && pop.value > 0))
    ensures r.Some? && mode == Absolute ==>
      r.value == Scaled(e.value.avg, e.value.bounds.lo, e.value.bounds.hi)
    ensures r.Some? && e.value.bounds.lo <= e.value.avg <= e.value.bounds.hi ==>
      r.value.lo <= r.value.value <= r.value.hi
    ensures r.Some? && e.value.bounds.Valid() ==> r.value.lo >= 0.0
  {
    if e.None? then None
    else
      var avg, lo, hi := e.value.avg, e.value.bounds.lo, e.value.bounds.hi;
      if mode == Absolute then Some(Scaled(avg, lo, hi))
      else if pop.None? || pop.value <= 0 then None
      else
        Some(ScaleBy(avg, lo, hi, Factor(mode, pop.value)))
  }

  /** The midpoint and both ends multiplied by one positive factor: their
      order is kept, and so is a non-negative low end. */
  function ScaleBy(avg: real, lo: real, hi: real, f: real): (s: Scaled)
    requires f > 0.0
    ensures s.value == avg * f && s.lo == lo * f && s.hi == hi * f
    ensures lo <= avg <= hi ==> s.lo <= s.value <= s.hi
    ensures 0.0 <= lo ==> 0.0 <= s.lo
  {
    ScaleOrder(lo, avg, f);
    ScaleOrder(avg, hi, f);
    ScaleOrder(0.0, lo, f);
    Scaled(avg * f, lo * f, hi * f)
  }

  lemma ScaleOrder(x: real, y: real, f: real)
    requires f > 0.0
    ensures x <= y ==> x * f <= y * f
  {
  }

  /** Scaling is undone by the population: a value per 100,000 people times
      the population over 100,000 is the absolute value again, and likewise
      for a percentage. */
  lemma UnscaleRoundTrip(e: Estimate, pop: int, mode: Mode)
    requires mode != Absolute && pop > 0
    ensures var r := ScaleValues(Some(e), Some(pop), mode).value;
      var unit := if mode == Per100k then 100000.0 else 100.0;
      && r.value * pop as real / unit == e.avg
      && r.lo * pop as real / unit == e.bounds.lo
      && r.hi * pop as real / unit == e.bounds.hi
  {
    var f := Factor(mode, pop);
    var unit := if mode == Per100k then 100000.0 else 100.0;
    var p := pop as real;
    assert f * p == unit;
    Unscale(e.avg, f, p, unit);
    Unscale(e.bounds.lo, f, p, unit);
    Unscale(e.bounds.hi, f, p, unit);
  }

  lemma Unscale(x: real, f: real, p: real, unit: real)
    requires f * p == unit && unit > 0.0
    ensures x * f * p / unit == x
  {
    assert x * f * p == x * unit;
  }

  /** A percentage of the population is a thousandth of the deaths per
      100,000 people. */
  lemma PercentIsPer100kOverThousand(e: Estimate, pop: int)
    requires pop > 0
    ensures ScaleValues(Some(e), Some(pop), PercentOfPopulation).value.value * 1000.0 ==
            ScaleValues(Some(e), Some(pop), Per100k).value.value
  {
    var p := pop as real;
    assert Factor(PercentOfPopulation, pop) * 1000.0 == Factor(Per100k, pop) by {
      FactorRatio(p);
    }
  }

  lemma FactorRatio(p: real)
    requires p > 0.0
    ensures 100.0 / p * 1000.0 == 100000.0 / p
  {
  }

  /** The rows the animation starts from: all three midpoints known, and a
      population whenever the mode scales by it. */
  predicate Eligible(r: CountryRecord, mode: Mode) {
    && r.total.Some? && r.military.Some? && r.civilian.Some?
    && (mode == Absolute || r.pop.Some?)
  }

  /** Eligible, and the focus metric scales to a value. */
  predicate Shown(r: CountryRecord, metric: Metric, mode: Mode) {
    Eligible(r, mode) && ScaleValues(EstimateFor(r, metric), r.pop, mode).Some?
  }

  /** The animation row of a shown record. */
  function EntryOf(r: CountryRecord, metric: Metric, mode: Mode): (e: Entry)
    requires Shown(r, metric, mode)
    ensures e.record == r
  {
    Entry(r,
          ScaleValues(r.total, r.pop, mode),
          ScaleValues(r.military, r.pop, mode),
          ScaleValues(r.civilian, r.pop, mode),
          ScaleValues(EstimateFor(r, metric), r.pop, mode).value.value)
  }

  /** The filters before the sort: eligible rows whose focus value exists,
      in table order, as animation rows. */
  function Pool(rows: seq<CountryRecord>, metric: Metric, mode: Mode): (p: seq<Entry>)
    ensures |p| <= |rows|
    ensures forall i :: 0 <= i < |p| ==>
      Shown(p[i].record, metric, mode) && p[i] == EntryOf(p[i].record, metric, mode)
    ensures forall i :: 0 <= i < |p| ==> p[i].record in rows
    ensures forall i :: 0 <= i < |rows| && Shown(rows[i], metric, mode) ==>
      EntryOf(rows[i], metric, mode) in p
    ensures forall e :: multiset(p)[e] == (if ShownEntry(e, metric, mode) then multiset(rows)[e.record] else 0)
  {
    if rows == [] then []
    else
      var rest := Pool(rows[1..], metric, mode);
      var p := if Shown(rows[0], metric, mode) then [EntryOf(rows[0], metric, mode)] + rest else rest;
      PoolCount(rows, rest, p, metric, mode);
      PoolMembers(rows, p, metric, mode);
      p
  }

  /** A sequence holding each shown record's row as often as the table holds
      the record holds only such rows, and all of them. */
  lemma PoolMembers(rows: seq<CountryRecord>, p: seq<Entry>, metric: Metric, mode: Mode)
    requires forall e :: multiset(p)[e] == (if ShownEntry(e, metric, mode) then multiset(rows)[e.record] else 0)
    ensures forall i :: 0 <= i < |p| ==>
      Shown(p[i].record, metric, mode) && p[i] == EntryOf(p[i].record, metric, mode)
    ensures forall i :: 0 <= i < |p| ==> p[i].record in rows
    ensures forall i :: 0 <= i < |rows| && Shown(rows[i], metric, mode) ==>
      EntryOf(rows[i], metric, mode) in p
  {
    forall i | 0 <= i < |p|
      ensures ShownEntry(p[i], metric, mode) && p[i].record in rows
    {
      assert multiset(p)[p[i]] > 0;
    }
    forall i | 0 <= i < |rows| && Shown(rows[i], metric, mode)
      ensures EntryOf(rows[i], metric, mode) in p
    {
      var e := EntryOf(rows[i], metric, mode);
      assert ShownEntry(e, metric, mode);
      assert multiset(rows)[rows[i]] > 0;
    }
  }

  /** `e` is the animation row of a shown record. */
  predicate ShownEntry(e: Entry, metric: Metric, mode: Mode) {
    Shown(e.record, metric, mode) && e == EntryOf(e.record, metric, mode)
  }

  /** Filtering the first row on top of the filtered rest keeps each shown
      record as often as the table holds it. */
  lemma PoolCount(rows: seq<CountryRecord>, rest: seq<Entry>, p: seq<Entry>, metric: Metric, mode: Mode)
    requires |rows| > 0
    requires forall e :: multiset(rest)[e] == (if ShownEntry(e, metric, mode) then multiset(rows[1..])[e.record] else 0)
    requires p == if Shown(rows[0], metric, mode) then [EntryOf(rows[0], metric, mode)] + rest else rest
    ensures forall e :: multiset(p)[e] == (if ShownEntry(e, metric, mode) then multiset(rows)[e.record] else 0)
  {
    assert multiset(rows) == multiset{rows[0]} + multiset(rows[1..]) by {
      assert rows == [rows[0]] + rows[1..];
    }
    forall e
      ensures multiset(p)[e] == (if ShownEntry(e, metric, mode) then multiset(rows)[e.record] else 0)
    {
      if Shown(rows[0], metric, mode) {
        assert multiset(p) == multiset{EntryOf(rows[0], metric, mode)} + multiset(rest);
        if e == EntryOf(rows[0], metric, mode) {
          assert e.record == rows[0];
        }
      }
    }
  }

  function MetricKey(e: Entry): real {
    e.metricValue
  }

  /** The animation's rows: the pool sorted by the focus value, largest
      first, cut to `n`, then re-sorted smallest first. */
  function Select(rows: seq<CountryRecord>, metric: Metric, mode: Mode, n: nat): (r: seq<Entry>)
    ensures var pool := Pool(rows, metric, mode);
      && SortedAsc(r, MetricKey)
      && |r| == (if n < |pool| then n else |pool|)
      && multiset(r) <= multiset(pool)
      && Outranks(r, pool, MetricKey)
  {
    var pool := Pool(rows, metric, mode);
    var sorted := SortDesc(pool, MetricKey);
    var kept := Head(sorted, n);
    var r := SortAsc(kept, MetricKey);
    TopSplit(pool, n, MetricKey);
    KeptOutranksDropped(r, kept, sorted[|kept|..], pool, MetricKey);
    r
  }
}

=== FILE: range_label.dfy ===
/** The labels the WWII page shows next to each estimate (`_format_range`):
    "Unknown", one grouped number, or "low to high". */
module RangeLabel {
  import opened Wrappers
  import opened Decimal
  import opened DeathText

  /** Python's `int(x)` on a float: the integer part, rounding toward zero. */
  function Trunc(x: real): (i: int)
    ensures x >= 0.0 ==> 0 <= i && i as real <= x < i as real + 1.0
    ensures x < 0.0 ==> i <= 0 && i as real - 1.0 < x <= i as real
  {
    if x >= 0.0 then x.Floor else -((-x).Floor)
  }

  /** `_format_range`: "Unknown" when either end is missing, the single
      truncated number when both ends are equal, else "lo to hi". */
  function FormatRange(lo: Option<real>, hi: Option<real>): (s: string)
    ensures s == "Unknown" <==> lo.None? || hi.None?
    ensures lo.Some? && hi.Some? ==> |s| > 0 && (s[0] == '-' || IsDigit(s[0]))
  {
    if lo.None? || hi.None? then "Unknown"
    else if lo.value == hi.value then FormatInt(Trunc(lo.value))
    else
      var a := FormatInt(Trunc(lo.value));
      assert (a + " to " + FormatInt(Trunc(hi.value)))[0] == a[0];
      a + " to " + FormatInt(Trunc(hi.value))
  }

  /** The label of the ends of a parsed estimate. */
  function BoundsLabel(b: Option<Bounds>): (s: string)
    ensures s == "Unknown" <==> b.None?
  {
    if b.None? then FormatRange(None, None)
    else FormatRange(Some(b.value.lo), Some(b.value.hi))
  }

  /** A point estimate of a whole number of deaths is labelled with that
      number, grouped by thousands. */
  lemma LabelOfCount(n: nat)
    ensures FormatRange(Some(n as real), Some(n as real)) == Grouped(n)
  {
    assert Trunc(n as real) == n;
  }

  /** The label of a non-negative point estimate reads back, through the
      death-count parser, as the estimate with its fraction dropped. */
  lemma LabelReadsBack(x: real)
    requires x >= 0.0
    ensures var n := Trunc(x) as real;
      ParseDeathText(FormatRange(Some(x), Some(x))) == Ok(Some(Bounds(n, n)))
  {
    var n: nat := Trunc(x);
    assert FormatRange(Some(x), Some(x)) == Grouped(n);
    ParseGroupedNumber(n);
  }

  /** A range of two different whole counts is labelled "a to b" with both
      numbers grouped, in the order given. */
  lemma LabelOfRange(a: nat, b: nat)
    requires a != b
    ensures FormatRange(Some(a as real), Some(b as real)) == Grouped(a) + " to " + Grouped(b)
  {
    assert Trunc(a as real) == a && Trunc(b as real) == b;
  }
}

=== FILE: ranking.dfy ===
/** Ordering by a numeric key and keeping the first `n`: pandas'
    `sort_values(col, ascending=...)` followed by `head(n)`. The sort is
    an insertion sort; only facts that hold whatever order ties take are
    stated, since pandas' default sort is not stable. */
module Ranking {

  predicate SortedDesc<T>(s: seq<T>, key: T -> real) {
    forall i, j :: 0 <= i < j < |s| ==> key(s[i]) >= key(s[j])
  }

  predicate SortedAsc<T>(s: seq<T>, key: T -> real) {
    forall i, j :: 0 <= i < j < |s| ==> key(s[i]) <= key(s[j])
  }

  /** Every element of `hi` ranks at least as high as every element of `lo`. */
  predicate Dominates<T>(hi: seq<T>, lo: seq<T>, key: T -> real) {
    forall i, j :: 0 <= i < |hi| && 0 <= j < |lo| ==> key(hi[i]) >= key(lo[j])
  }

  /** `x` placed into a descending sequence after every larger key. */
  function InsertDesc<T>(x: T, s: seq<T>, key: T -> real): (r: seq<T>)
    requires SortedDesc(s, key)
    ensures SortedDesc(r, key)
    ensures multiset(r) == multiset(s) + multiset{x}
    ensures |r| == |s| + 1
  {
    if s == [] || key(x) >= key(s[0]) then
      assert forall j :: 0 <= j < |s| ==> key(x) >= key(s[j]) by {
        assert forall j :: 0 < j < |s| ==> key(s[0]) >= key(s[j]);
      }
      ConsSorted(x, s, key);
      [x] + s
    else
      var rest := InsertDesc(x, s[1..], key);
      HeadAboveRest(x, s, rest, key);
      ConsSorted(s[0], rest, key);
      assert s == [s[0]] + s[1..];
      [s[0]] + rest
  }

  lemma ConsSorted<T>(h: T, t: seq<T>, key: T -> real)
    requires SortedDesc(t, key)
    requires forall j :: 0 <= j < |t| ==> key(h) >= key(t[j])
    ensures SortedDesc([h] + t, key)
  {
    var r := [h] + t;
    forall i, j | 0 <= i < j < |r|
      ensures key(r[i]) >= key(r[j])
    {
      assert r[j] == t[j - 1];
      if i > 0 {
        assert r[i] == t[i - 1];
      }
    }
  }

  /** The head of a descending sequence ranks at least as high as any
      rearrangement of its tail with a lower-ranked element added. */
  lemma HeadAboveRest<T>(x: T, s: seq<T>, rest: seq<T>, key: T -> real)
    requires SortedDesc(s, key) && |s| > 0 && key(x) < key(s[0])
    requires multiset(rest) == multiset(s[1..]) + multiset{x}
    ensures forall j :: 0 <= j < |rest| ==> key(s[0]) >= key(rest[j])
  {
    forall j | 0 <= j < |rest|
      ensures key(s[0]) >= key(rest[j])
    {
      assert rest[j] in multiset(rest);
      if rest[j] != x {
        assert rest[j] in multiset(s[1..]);
        var k :| 0 <= k < |s[1..]| && s[1..][k] == rest[j];
        assert s[k + 1] == rest[j];
      }
    }
  }

  /** `sort_values(key, ascending=False)`: the same elements, largest key
      first. */
  function SortDesc<T>(s: seq<T>, key: T -> real): (r: seq<T>)
    ensures SortedDesc(r, key)
    ensures multiset(r) == multiset(s)
    ensures |r| == |s|
  {
    if s == [] then []
    else
      assert s == [s[0]] + s[1..];
      InsertDesc(s[0], SortDesc(s[1..], key), key)
  }

  /** `sort_values(key, ascending=True)`: the same elements, smallest key
      first; a descending sort on the negated key. */
  function SortAsc<T>(s: seq<T>, key: T -> real): (r: seq<T>)
    ensures SortedAsc(r, key)
    ensures multiset(r) == multiset(s)
    ensures |r| == |s|
  {
    var neg := (x: T) => -key(x);
    var r := SortDesc(s, neg);
    assert forall i, j :: 0 <= i < j < |r| ==> neg(r[i]) >= neg(r[j]);
    r
  }

  /** `head(n)` on a sequence: its first `n` elements, or all of it. */
  function Head<T>(s: seq<T>, n: nat): (r: seq<T>)
    ensures |r| == if n < |s| then n else |s|
    ensures forall i :: 0 <= i < |r| ==> r[i] == s[i]
    ensures multiset(r) <= multiset(s)
  {
    if n < |s| then
      assert s == s[..n] + s[n..];
      s[..n]
    else s
  }

  /** A prefix of a descending sequence is descending. */
  lemma HeadSorted<T>(s: seq<T>, n: nat, key: T -> real)
    requires SortedDesc(s, key)
    ensures SortedDesc(Head(s, n), key)
  {
    var r := Head(s, n);
    forall i, j | 0 <= i < j < |r|
      ensures key(r[i]) >= key(r[j])
    {
      assert r[i] == s[i] && r[j] == s[j];
    }
  }

  /** `sort_values(key, ascending=False).head(n)`, with the elements it
      drops: the kept ones outrank the dropped ones, and together they are
      exactly the input. */
  lemma {:induction false} TopSplit<T>(s: seq<T>, n: nat, key: T -> real)
    ensures var sorted := SortDesc(s, key);
      var kept := Head(sorted, n);
      var dropped := sorted[|kept|..];
      && multiset(kept) + multiset(dropped) == multiset(s)
      && Dominates(kept, dropped, key)
  {
    var sorted := SortDesc(s, key);
    var kept := Head(sorted, n);
    var dropped := sorted[|kept|..];
    assert kept == sorted[..|kept|];
    SortedSplit(sorted, |kept|, key);
  }

  /** Cutting a descending sequence anywhere leaves the front above the back. */
  lemma SortedSplit<T>(s: seq<T>, k: nat, key: T -> real)
    requires SortedDesc(s, key) && k <= |s|
    ensures multiset(s[..k]) + multiset(s[k..]) == multiset(s)
    ensures Dominates(s[..k], s[k..], key)
  {
    assert s == s[..k] + s[k..];
    forall i, j | 0 <= i < k && 0 <= j < |s| - k
      ensures key(s[..k][i]) >= key(s[k..][j])
    {
      assert s[..k][i] == s[i] && s[k..][j] == s[k + j];
    }
  }

  /** Every element of `r` ranks at least as high as every element of `s`
      that `r` does not take. */
  predicate Outranks<T(==)>(r: seq<T>, s: seq<T>, key: T -> real) {
    forall i, y :: 0 <= i < |r| && y in multiset(s) - multiset(r) ==> key(r[i]) >= key(y)
  }

  /** Re-ordering the kept elements keeps them above the dropped ones. */
  lemma KeptOutranksDropped<T>(r: seq<T>, kept: seq<T>, dropped: seq<T>, s: seq<T>, key: T -> real)
    requires multiset(r) == multiset(kept)
    requires multiset(kept) + multiset(dropped) == multiset(s)
    requires Dominates(kept, dropped, key)
    ensures multiset(r) <= multiset(s)
    ensures Outranks(r, s, key)
  {
    assert multiset(s) - multiset(r) == multiset(dropped);
    forall i, y | 0 <= i < |r| && y in multiset(s) - multiset(r)
      ensures key(r[i]) >= key(y)
    {
      assert r[i] in multiset(kept);
      var a :| 0 <= a < |kept| && kept[a] == r[i];
      assert y in multiset(dropped);
      var b :| 0 <= b < |dropped| && dropped[b] == y;
      assert key(kept[a]) >= key(dropped[b]);
    }
  }

  /** The first `n` after a descending sort outrank everything else. */
  lemma TopOutranks<T>(s: seq<T>, n: nat, key: T -> real)
    ensures Outranks(Head(SortDesc(s, key), n), s, key)
  {
    var sorted := SortDesc(s, key);
    var kept := Head(sorted, n);
    TopSplit(s, n, key);
    KeptOutranksDropped(kept, kept, sorted[|kept|..], s, key);
  }
}

=== FILE: tesseract.dfy ===
/** The geometry of the tesseract page: the 16 vertices of a 4-dimensional
    hypercube centred at the origin, and its edges, the pairs of vertices
    that differ in exactly one coordinate. Rotation, projection and drawing
    are left to the renderer and are not modelled. */
module Tesseract {

  const Dimensions: nat := 4
  const VertexCount: nat := 16

  function Pow2(k: nat): (r: nat)
    ensures r >= 1
  {
    if k == 0 then 1 else 2 * Pow2(k - 1)
  }

  /** `i & 2^k` is non-zero. */
  predicate Bit(i: nat, k: nat) {
    (i / Pow2(k)) % 2 == 1
  }

  /** Coordinate `k` of vertex `i`: +1 when bit `k` of `i` is set, else -1. */
  function Coord(i: nat, k: nat): int {
    if Bit(i, k) then 1 else -1
  }

  /** The vertex with index `i`. */
  function Vertex(i: nat): (v: seq<int>)
    ensures |v| == Dimensions
    ensures forall k :: 0 <= k < |v| ==> v[k] == 1 || v[k] == -1
  {
    [Coord(i, 0), Coord(i, 1), Coord(i, 2), Coord(i, 3)]
  }

  /** The index a vertex stands for: bit `k` set where coordinate `k` is +1. */
  function Index(v: seq<int>): nat
    requires |v| == Dimensions
  {
    (if v[0] == 1 then 1 else 0) + (if v[1] == 1 then 2 else 0) +
    (if v[2] == 1 then 4 else 0) + (if v[3] == 1 then 8 else 0)
  }

  /** The vertex loop: vertex `i` for each `i` below 16. */
  method BuildVertices() returns (vs: seq<seq<int>>)
    ensures |vs| == VertexCount
    ensures forall i :: 0 <= i < |vs| ==> vs[i] == Vertex(i)
  {
    vs := [];
    var i := 0;
    while i < VertexCount
      invariant 0 <= i <= VertexCount
      invariant |vs| == i
      invariant forall j :: 0 <= j < i ==> vs[j] == Vertex(j)
    {
      var v := [Coord(i, 0), Coord(i, 1), Coord(i, 2), Coord(i, 3)];
      vs := vs + [v];
      i := i + 1;
    }
  }

  /** Every vertex index reads back from its coordinates, so the 16
      vertices are pairwise distinct. */
  lemma VertexIndex(i: nat)
    requires i < VertexCount
    ensures Index(Vertex(i)) == i
  {
    assert i == (i / 1) % 2 + 2 * ((i / 2) % 2) + 4 * ((i / 4) % 2) + 8 * ((i / 8) % 2);
  }

  lemma VerticesDistinct(i: nat, j: nat)
    requires i < VertexCount && j < VertexCount && i != j
    ensures Vertex(i) != Vertex(j)
  {
    VertexIndex(i);
    VertexIndex(j);
  }

  /** How many of the first `k` coordinates of `u` and `v` differ. */
  function Differences(u: seq<int>, v: seq<int>, k: nat): (d: nat)
    requires k <= |u| && k <= |v|
    ensures d <= k
    ensures d == 0 <==> u[..k] == v[..k]
  {
    if k == 0 then 0
    else
      assert u[..k] == u[..k - 1] + [u[k - 1]] && v[..k] == v[..k - 1] + [v[k - 1]];
      Differences(u, v, k - 1) + (if u[k - 1] != v[k - 1] then 1 else 0)
  }

  /** Vertices `i` and `j` of `vs` differ in exactly one coordinate. */
  predicate Adjacent(vs: seq<seq<int>>, i: nat, j: nat)
    requires i < |vs| && j < |vs| && |vs[i]| == Dimensions && |vs[j]| == Dimensions
  {
    Differences(vs[i], vs[j], Dimensions) == 1
  }

  predicate WellShaped(vs: seq<seq<int>>) {
    |vs| == VertexCount && forall i :: 0 <= i < |vs| ==> |vs[i]| == Dimensions
  }

  /** The edges `(i, j')` with `i < j' < j`, in order of `j'`. */
  function RowPart(vs: seq<seq<int>>, i: nat, j: nat): (row: seq<(nat, nat)>)
    requires WellShaped(vs) && i < VertexCount && j <= VertexCount
    ensures forall e :: e in row ==> e.0 == i && i < e.1 < j && Adjacent(vs, i, e.1)
    ensures forall j' :: i < j' < j && Adjacent(vs, i, j') ==> (i, j') in row
    ensures forall a, b :: 0 <= a < b < |row| ==> row[a].1 < row[b].1
    decreases j
  {
    if j <= i + 1 then []
    else
      var prev := RowPart(vs, i, j - 1);
      if Adjacent(vs, i, j - 1) then prev + [(i, j - 1)] else prev
  }

  /** The edges found by the outer loop before row `i`. */
  function EdgesBefore(vs: seq<seq<int>>, i: nat): (es: seq<(nat, nat)>)
    requires WellShaped(vs) && i <= VertexCount
    ensures forall e :: e in es ==> e.0 < i && e.0 < e.1 < VertexCount && Adjacent(vs, e.0, e.1)
    ensures forall a: nat, b: nat :: a < i && a < b < VertexCount && Adjacent(vs, a, b) ==> (a, b) in es
    ensures forall x, y :: 0 <= x < y < |es| ==> Before(es[x], es[y])
  {
    if i == 0 then []
    else
      var prev := EdgesBefore(vs, i - 1);
      var row := RowPart(vs, i - 1, VertexCount);
      JoinBefore(prev, row, i - 1);
      prev + row
  }

  /** Edges of earlier rows followed by a row sorted by its second index
      stay in lexicographic order. */
  lemma JoinBefore(prev: seq<(nat, nat)>, row: seq<(nat, nat)>, r: nat)
    requires forall x, y :: 0 <= x < y < |prev| ==> Before(prev[x], prev[y])
    requires forall e :: e in prev ==> e.0 < r
    requires forall e :: e in row ==> e.0 == r
    requires forall a, b :: 0 <= a < b < |row| ==> row[a].1 < row[b].1
    ensures forall x, y :: 0 <= x < y < |prev + row| ==> Before((prev + row)[x], (prev + row)[y])
  {
    var es := prev + row;
    forall x, y | 0 <= x < y < |es|
      ensures Before(es[x], es[y])
    {
      if y >= |prev| {
        assert es[y] == row[y - |prev|];
        if x >= |prev| {
          assert es[x] == row[x - |prev|];
        } else {
          assert es[x] == prev[x];
          assert prev[x] in prev && row[y - |prev|] in row;
        }
      }
    }
  }

  /** Strict lexicographic order on index pairs. */
  predicate Before(e: (nat, nat), f: (nat, nat)) {
    e.0 < f.0 || (e.0 == f.0 && e.1 < f.1)
  }

  /** The innermost loop: the number of coordinates in which two vertices
      differ. */
  method CountDifferences(u: seq<int>, v: seq<int>) returns (diff: nat)
    requires |u| == Dimensions && |v| == Dimensions
    ensures diff == Differences(u, v, Dimensions)
  {
    diff := 0;
    var k := 0;
    while k < Dimensions
      invariant 0 <= k <= Dimensions
      invariant diff == Differences(u, v, k)
    {
      if u[k] != v[k] {
        diff := diff + 1;
      }
      k := k + 1;
    }
  }

  /** The edge loops: for each `i`, each `j > i`, count the coordinates in
      which vertices `i` and `j` differ and record `(i, j)` when exactly
      one does. */
  method BuildEdges(vs: seq<seq<int>>) returns (edges: seq<(nat, nat)>)
    requires WellShaped(vs)
    ensures edges == EdgesBefore(vs, VertexCount)
    ensures forall e :: e in edges ==> e.0 < e.1 < VertexCount && Adjacent(vs, e.0, e.1)
    ensures forall i: nat, j: nat :: i < j < VertexCount && Adjacent(vs, i, j) ==> (i, j) in edges
    ensures forall x, y :: 0 <= x < y < |edges| ==> Before(edges[x], edges[y])
  {
    edges := [];
    var i := 0;
    while i < VertexCount
      invariant 0 <= i <= VertexCount
      invariant edges == EdgesBefore(vs, i)
    {
      var j := i + 1;
      ghost var prev := edges;
      while j < VertexCount
        invariant i + 1 <= j <= VertexCount
        invariant edges == prev + RowPart(vs, i, j)
      {
        var diff := CountDifferences(vs[i], vs[j]);
        RowPartStep(vs, i, j);
        if diff == 1 {
          edges := edges + [(i, j)];
        }
        j := j + 1;
      }
      i := i + 1;
    }
  }

  /** One more column of row `i`. */
  lemma RowPartStep(vs: seq<seq<int>>, i: nat, j: nat)
    requires WellShaped(vs) && i < j < VertexCount
    ensures RowPart(vs, i, j + 1) == RowPart(vs, i, j) + (if Adjacent(vs, i, j) then [(i, j)] else [])
  {
  }

  /** The vertices with index below `n`, in order: what the vertex loop
      builds. */
  function VerticesBelow(n: nat): (vs: seq<seq<int>>)
    ensures |vs| == n
    ensures forall i :: 0 <= i < n ==> vs[i] == Vertex(i)
  {
    if n == 0 then [] else VerticesBelow(n - 1) + [Vertex(n - 1)]
  }

  /** Bit `k` of `i` as a number. */
  function BitValue(i: nat, k: nat): (b: nat)
    ensures b == 0 || b == 1
    ensures b == 1 <==> Bit(i, k)
  {
    (i / Pow2(k)) % 2
  }

  /** `i` with bit `k` flipped. */
  function Flip(i: nat, k: nat): nat {
    if Bit(i, k) then i - Pow2(k) else i + Pow2(k)
  }

  /** `j` is `i` with exactly one of its four bits flipped. */
  predicate OneBitApart(i: nat, j: nat) {
    j == Flip(i, 0) || j == Flip(i, 1) || j == Flip(i, 2) || j == Flip(i, 3)
  }

  /** The four bits of an index below 16 add back up to it. */
  lemma Bits(i: nat)
    requires i < VertexCount
    ensures i == BitValue(i, 0) + 2 * BitValue(i, 1) + 4 * BitValue(i, 2) + 8 * BitValue(i, 3)
  {
    assert Pow2(0) == 1 && Pow2(1) == 2 && Pow2(2) == 4 && Pow2(3) == 8;
  }

  /** The number of coordinates in which two vertices differ is the number
      of bits in which their indices differ. */
  lemma DifferencesAreBits(i: nat, j: nat)
    ensures Differences(Vertex(i), Vertex(j), Dimensions) ==
      (if Bit(i, 0) != Bit(j, 0) then 1 else 0) + (if Bit(i, 1) != Bit(j, 1) then 1 else 0) +
      (if Bit(i, 2) != Bit(j, 2) then 1 else 0) + (if Bit(i, 3) != Bit(j, 3) then 1 else 0)
  {
    var u, v := Vertex(i), Vertex(j);
    assert Differences(u, v, 1) == if Bit(i, 0) != Bit(j, 0) then 1 else 0;
    assert Differences(u, v, 2) == Differences(u, v, 1) + if Bit(i, 1) != Bit(j, 1) then 1 else 0;
    assert Differences(u, v, 3) == Differences(u, v, 2) + if Bit(i, 2) != Bit(j, 2) then 1 else 0;
  }

  /** Two vertices are joined by an edge exactly when their indices differ
      in a single bit, that is when their exclusive or is a power of two. */
  lemma AdjacentIffOneBit(i: nat, j: nat)
    requires i < VertexCount && j < VertexCount
    ensures Differences(Vertex(i), Vertex(j), Dimensions) == 1 <==> OneBitApart(i, j)
  {
    var a0, a1, a2, a3 := BitValue(i, 0), BitValue(i, 1), BitValue(i, 2), BitValue(i, 3);
    var c0, c1, c2, c3 := BitValue(j, 0), BitValue(j, 1), BitValue(j, 2), BitValue(j, 3);
    var d := Differences(Vertex(i), Vertex(j), Dimensions);
    assert d == (if a0 != c0 then 1 else 0) + (if a1 != c1 then 1 else 0) +
               (if a2 != c2 then 1 else 0) + (if a3 != c3 then 1 else 0) by {
      DifferencesAreBits(i, j);
    }
    assert i == a0 + 2 * a1 + 4 * a2 + 8 * a3 by {
      Bits(i);
    }
    assert j == c0 + 2 * c1 + 4 * c2 + 8 * c3 by {
      Bits(j);
    }
    FlipValues(i);
    BinaryFlip(i, j, d, Flip(i, 0), Flip(i, 1), Flip(i, 2), Flip(i, 3), a0, a1, a2, a3, c0, c1, c2, c3);
  }

  lemma FlipValues(i: nat)
    ensures Flip(i, 0) == if BitValue(i, 0) == 1 then i - 1 else i + 1
    ensures Flip(i, 1) == if BitValue(i, 1) == 1 then i - 2 else i + 2
    ensures Flip(i, 2) == if BitValue(i, 2) == 1 then i - 4 else i + 4
    ensures Flip(i, 3) == if BitValue(i, 3) == 1 then i - 8 else i + 8
  {
    assert Pow2(0) == 1 && Pow2(1) == 2 && Pow2(2) == 4 && Pow2(3) == 8;
  }

  /** Four-bit numbers `i` and `j` differ in one bit (`d` counts the bits in
      which they differ) exactly when `j` is one of the four numbers `f0`
      to `f3` that flip one bit of `i`. */
  lemma BinaryFlip(i: int, j: int, d: int, f0: int, f1: int, f2: int, f3: int,
                   a0: nat, a1: nat, a2: nat, a3: nat, c0: nat, c1: nat, c2: nat, c3: nat)
    requires a0 <= 1 && a1 <= 1 && a2 <= 1 && a3 <= 1
    requires c0 <= 1 && c1 <= 1 && c2 <= 1 && c3 <= 1
    requires i == a0 + 2 * a1 + 4 * a2 + 8 * a3 && j == c0 + 2 * c1 + 4 * c2 + 8 * c3
    requires d == (if a0 != c0 then 1 else 0) + (if a1 != c1 then 1 else 0) +
                  (if a2 != c2 then 1 else 0) + (if a3 != c3 then 1 else 0)
    requires f0 == (if a0 == 1 then i - 1 else i + 1) && f1 == (if a1 == 1 then i - 2 else i + 2)
    requires f2 == (if a2 == 1 then i - 4 else i + 4) && f3 == (if a3 == 1 then i - 8 else i + 8)
    ensures d == 1 <==> j == f0 || j == f1 || j == f2 || j == f3
  {
  }

  /** `RowPart` on the tesseract's own vertices, with adjacency read off
      the indices. */
  function RowSpec(i: nat, j: nat): seq<(nat, nat)>
    decreases j
  {
    if j <= i + 1 then []
    else RowSpec(i, j - 1) + (if OneBitApart(i, j - 1) then [(i, j - 1)] else [])
  }

  /** `EdgesBefore` on the tesseract's own vertices, by index. */
  function EdgeSpec(i: nat): seq<(nat, nat)> {
    if i == 0 then [] else EdgeSpec(i - 1) + RowSpec(i - 1, VertexCount)
  }

  lemma {:induction false} RowPartIsSpec(i: nat, j: nat)
    requires i < VertexCount && j <= VertexCount
    ensures RowPart(VerticesBelow(VertexCount), i, j) == RowSpec(i, j)
    decreases j
  {
    if j > i + 1 {
      var vs := VerticesBelow(VertexCount);
      RowPartIsSpec(i, j - 1);
      assert Adjacent(vs, i, j - 1) <==> OneBitApart(i, j - 1) by {
        assert vs[i] == Vertex(i) && vs[j - 1] == Vertex(j - 1);
        AdjacentIffOneBit(i, j - 1);
      }
    }
  }

  lemma {:induction false} EdgesAreSpec(i: nat)
    requires i <= VertexCount
    ensures EdgesBefore(VerticesBelow(VertexCount), i) == EdgeSpec(i)
  {
    if i > 0 {
      EdgesAreSpec(i - 1);
      RowPartIsSpec(i - 1, VertexCount);
    }
  }

  /** How many of the four numbers that set one unset bit of `i` lie below
      `j`. */
  function Above(i: nat, j: nat): nat {
    (if !Bit(i, 0) && i + 1 < j then 1 else 0) + (if !Bit(i, 1) && i + 2 < j then 1 else 0) +
    (if !Bit(i, 2) && i + 4 < j then 1 else 0) + (if !Bit(i, 3) && i + 8 < j then 1 else 0)
  }

  /** The number of unset bits among the four bits of `i`. */
  function ZeroBits(i: nat): nat {
    4 - (i % 2 + i / 2 % 2 + i / 4 % 2 + i / 8 % 2)
  }

  /** `SumZeroBits(n)` adds up `ZeroBits(i)` for `i < n`. */
  function SumZeroBits(n: nat): nat {
    if n == 0 then 0 else SumZeroBits(n - 1) + ZeroBits(n - 1)
  }

  /** Moving the bound of `Above` past `m` counts `m` exactly when it is one
      bit away from `i`. */
  lemma AboveStep(i: nat, m: nat)
    requires i < m
    ensures Above(i, m + 1) == Above(i, m) + (if OneBitApart(i, m) then 1 else 0)
  {
    FlipValues(i);
  }

  /** The edges of row `i` below `j` are the numbers above `i` that set one
      of its unset bits. */
  lemma {:induction false} RowLength(i: nat, j: nat)
    ensures |RowSpec(i, j)| == Above(i, j)
    decreases j
  {
    if j > i + 1 {
      RowLength(i, j - 1);
      AboveStep(i, j - 1);
    }
  }

  /** Below 16, setting an unset bit never leaves the 16 vertices, so row
      `i` has one edge per unset bit of `i`. */
  lemma AboveAll(i: nat)
    requires i < VertexCount
    ensures Above(i, VertexCount) == ZeroBits(i)
  {
    Bits(i);
    assert Pow2(0) == 1 && Pow2(1) == 2 && Pow2(2) == 4 && Pow2(3) == 8;
  }

  lemma {:induction false} EdgeSpecLength(n: nat)
    requires n <= VertexCount
    ensures |EdgeSpec(n)| == SumZeroBits(n)
  {
    if n > 0 {
      EdgeSpecLength(n - 1);
      RowLength(n - 1, VertexCount);
      AboveAll(n - 1);
    }
  }

  /** The tesseract has 32 edges: each of its 16 vertices has four
      neighbours, and each edge is counted from its lower end only. */
  lemma EdgeCount()
    ensures |EdgeSpec(VertexCount)| == 32
  {
    EdgeSpecLength(VertexCount);
    ZeroBitsTotal();
  }

  /** The 16 indices have 32 unset bits between them. */
  lemma ZeroBitsTotal()
    ensures SumZeroBits(VertexCount) == 32
  {
    assert SumZeroBits(2) == 7;
    assert SumZeroBits(4) == 12;
    assert SumZeroBits(6) == 17;
    assert SumZeroBits(8) == 20;
    assert SumZeroBits(10) == 25;
    assert SumZeroBits(12) == 28;
    assert SumZeroBits(14) == 31;
  }

  /** The page's geometry: the vertex loop and the edge loops run on the
      tesseract's own vertices give its 32 edges, each joining two indices
      one bit apart, every such pair once, in lexicographic order. */
  method Hypercube() returns (vs: seq<seq<int>>, edges: seq<(nat, nat)>)
    ensures |vs| == VertexCount
    ensures forall i :: 0 <= i < |vs| ==> vs[i] == Vertex(i)
    ensures |edges| == 32
    ensures forall e :: e in edges ==> e.0 < e.1 < VertexCount && OneBitApart(e.0, e.1)
    ensures forall i: nat, j: nat :: i < j < VertexCount && OneBitApart(i, j) ==> (i, j) in edges
    ensures forall x, y :: 0 <= x < y < |edges| ==> Before(edges[x], edges[y])
  {
    vs := BuildVertices();
    assert vs == VerticesBelow(VertexCount);
    edges := BuildEdges(vs);
    EdgesAreSpec(VertexCount);
    EdgeCount();
    forall i: nat, j: nat | i < VertexCount && j < VertexCount
      ensures Adjacent(vs, i, j) <==> OneBitApart(i, j)
    {
      AdjacentIffOneBit(i, j);
    }
  }
}

=== FILE: text.dfy ===
/** Character-level string operations the program takes from Python's `str`:
    `strip()`, `replace(c, "")`, `split(c, 1)` and `c in s`. */
module Text {

  /** Python's `str.isspace()` code points: the characters `strip()` removes. */
  predicate IsSpace(c: char) {
    || c == ' ' || c == '\t' || c == '\n' || c == '\r'
    || c == '\U{000B}' || c == '\U{000C}'
    || ('\U{001C}' <= c <= '\U{001F}')
    || c == '\U{0085}' || c == '\U{00A0}' || c == '\U{1680}'
    || ('\U{2000}' <= c <= '\U{200A}')
    || c == '\U{2028}' || c == '\U{2029}' || c == '\U{202F}' || c == '\U{205F}' || c == '\U{3000}'
  }

  predicate AllSpace(s: string) {
    forall i :: 0 <= i < |s| ==> IsSpace(s[i])
  }

  /** No whitespace at either end: what `strip()` leaves behind. */
  predicate Trimmed(s: string) {
    s == [] || (!IsSpace(s[0]) && !IsSpace(s[|s| - 1]))
  }

  /** Index of the first non-space character at or after `i` (or `|s|`). */
  function SkipSpace(s: string, i: nat): (k: nat)
    requires i <= |s|
    ensures i <= k <= |s|
    ensures AllSpace(s[i..k])
    ensures k < |s| ==> !IsSpace(s[k])
    decreases |s| - i
  {
    if i == |s| || !IsSpace(s[i]) then i
    else
      var k := SkipSpace(s, i + 1);
      assert s[i..k] == [s[i]] + s[i + 1..k];
      k
  }

  /** One past the last non-space character of `s[lo..j]` (or `lo`). */
  function SkipSpaceBack(s: string, lo: nat, j: nat): (k: nat)
    requires lo <= j <= |s|
    ensures lo <= k <= j
    ensures AllSpace(s[k..j])
    ensures k > lo ==> !IsSpace(s[k - 1])
    ensures lo < j && !IsSpace(s[lo]) ==> lo < k
    decreases j
  {
    if j == lo || !IsSpace(s[j - 1]) then j
    else
      var k := SkipSpaceBack(s, lo, j - 1);
      assert s[k..j] == s[k..j - 1] + [s[j - 1]];
      k
  }

  /** Python's `s.strip()`: `s` with leading and trailing whitespace removed. */
  function Strip(s: string): (r: string)
    ensures Trimmed(r)
    ensures r == [] <==> AllSpace(s)
    ensures Trimmed(s) ==> r == s
  {
    var a := SkipSpace(s, 0);
    var b := SkipSpaceBack(s, a, |s|);
    assert a == |s| ==> s[0..a] == s;
    s[a..b]
  }

  /** What `strip()` keeps is a slice of the text, with only whitespace
      cut off on either side. */
  lemma StripSlice(s: string)
    ensures exists a, b :: 0 <= a <= b <= |s| && Strip(s) == s[a..b] && AllSpace(s[..a]) && AllSpace(s[b..])
  {
    var a := SkipSpace(s, 0);
    var b := SkipSpaceBack(s, a, |s|);
    assert s[..a] == s[0..a] && s[b..] == s[b..|s|];
    assert Strip(s) == s[a..b];
  }

  /** Python's `s.replace(c, "")`: every occurrence of `c` removed, every
      other character kept, in order. */
  function Remove(s: string, c: char): (r: string)
    ensures c !in r
    ensures c !in s ==> r == s
    ensures |r| <= |s|
  {
    if s == [] then []
    else if s[0] == c then Remove(s[1..], c)
    else [s[0]] + Remove(s[1..], c)
  }

  /** `replace(c, "")` keeps every other character as often as it occurs. */
  lemma {:induction false} RemoveCounts(s: string, c: char)
    ensures multiset(Remove(s, c)) == multiset(s)[c := 0]
  {
    if s != [] {
      assert s == [s[0]] + s[1..];
      RemoveCounts(s[1..], c);
    }
  }

  /** On one character, `replace(c, "")` drops it exactly when it is `c`;
      with `RemoveAppend` this fixes `Remove` on every string. */
  lemma RemoveSingle(x: char, c: char)
    ensures Remove([x], c) == if x == c then [] else [x]
  {
  }

  lemma RemoveAbsent(s: string, c: char)
    requires c !in s
    ensures Remove(s, c) == s
  {
  }

  lemma {:induction false} RemoveAppend(a: string, b: string, c: char)
    ensures Remove(a + b, c) == Remove(a, c) + Remove(b, c)
  {
    if a == [] {
      assert a + b == b;
    } else {
      assert (a + b)[0] == a[0];
      assert (a + b)[1..] == a[1..] + b;
      RemoveAppend(a[1..], b, c);
    }
  }

  /** Index of the first occurrence of `c` in `s`: where `s.split(c, 1)` cuts. */
  function IndexOf(s: string, c: char): (r: nat)
    ensures r <= |s|
    ensures c !in s[..r]
    ensures r < |s| <==> c in s
    ensures r < |s| ==> s[r] == c
  {
    if s == [] then 0
    else if s[0] == c then 0
    else
      var k := IndexOf(s[1..], c);
      assert s[..k + 1] == [s[0]] + s[1..][..k];
      k + 1
  }

  /** In "x" + c + "y" with no `c` in x, the first `c` is the one joining them. */
  lemma {:induction false} IndexOfJoin(x: string, c: char, y: string)
    requires c !in x
    ensures IndexOf(x + [c] + y, c) == |x|
  {
    var s := x + [c] + y;
    if x != [] {
      assert s[0] == x[0];
      assert s[1..] == x[1..] + [c] + y;
      IndexOfJoin(x[1..], c, y);
    }
  }
}

=== FILE: war_data.dfy ===
/** The figures the WWII page is built from: the death-count texts of
    40 countries and their 1939 populations, with the records the loader
    derives for some of them. */
module WarData {
  import opened Wrappers
  import opened Decimal
  import opened DeathText
  import opened CountryTable

  /** `RAW_DATA`: country, military deaths, total deaths. */
  const RawData: seq<RawRow> := [
    RawRow("Albania", "30,000", "30,200"),
    RawRow("Australia", "39,800", "40,500"),
    RawRow("Austria", "261,000", "384,700"),
    RawRow("Belgium", "12,100", "86,100"),
    RawRow("Brazil", "1,000", "2,000"),
    RawRow("Bulgaria", "22,000", "25,000"),
    RawRow("Canada", "45,400", "45,400"),
    RawRow("China", "3-4,000,000", "20,000,000"),
    RawRow("Czechoslovakia", "25,000", "345,000"),
    RawRow("Denmark", "2,100", "3,200"),
    RawRow("Dutch East Indies", "--", "3-4,000,000"),
    RawRow("Estonia", "--", "51,000"),
    RawRow("Ethiopia", "5,000", "100,000"),
    RawRow("Finland", "95,000", "97,000"),
    RawRow("France", "217,600", "567,600"),
    RawRow("French Indochina", "--", "1-1,500,000"),
    RawRow("Germany", "5,533,000", "6,600,000-8,800,000"),
    RawRow("Greece", "20,000-35,000", "300,000-800,000"),
    RawRow("Hungary", "300,000", "580,000"),
    RawRow("India", "87,000", "1,500,000-2,500,000"),
    RawRow("Italy", "301,400", "457,000"),
    RawRow("Japan", "2,120,000", "2,600,000-3,100,000"),
    RawRow("Korea", "--", "378,000-473,000"),
    RawRow("Latvia", "--", "227,000"),
    RawRow("Lithuania", "--", "353,000"),
    RawRow("Luxembourg", "--", "2,000"),
    RawRow("Malaya", "--", "100,000"),
    RawRow("Netherlands", "17,000", "301,000"),
    RawRow("New Zealand", "11,900", "11,900"),
    RawRow("Norway", "3,000", "9,500"),
    RawRow("Papua New Guinea", "--", "15,000"),
    RawRow("Philippines", "57,000", "500,000-1,000,000"),
    RawRow("Poland", "240,000", "5,600,000"),
    RawRow("Romania", "300,000", "833,000"),
    RawRow("Singapore", "--", "50,000"),
    RawRow("South Africa", "11,900", "11,900"),
    RawRow("Soviet Union", "8,800,000-10,700,000", "24,000,000"),
    RawRow("United Kingdom", "383,600", "450,700"),
    RawRow("United States", "416,800", "418,500"),
    RawRow("Yugoslavia", "446,000", "1,000,000")
  ]

  /** `POP_1939`: population in 1939. */
  const Pop1939: map<string, int> := map[
    "Albania" := 1073000,
    "Australia" := 7000000,
    "Austria" := 6760000,
    "Belgium" := 8300000,
    "Brazil" := 41000000,
    "Bulgaria" := 6300000,
    "Canada" := 11400000,
    "China" := 517000000,
    "Czechoslovakia" := 14800000,
    "Denmark" := 3800000,
    "Dutch East Indies" := 70000000,
    "Estonia" := 1100000,
    "Ethiopia" := 17000000,
    "Finland" := 3700000,
    "France" := 41700000,
    "French Indochina" := 24000000,
    "Germany" := 69000000,
    "Greece" := 7200000,
    "Hungary" := 9100000,
    "India" := 389000000,
    "Italy" := 44400000,
    "Japan" := 72000000,
    "Korea" := 25000000,
    "Latvia" := 1900000,
    "Lithuania" := 2600000,
    "Luxembourg" := 300000,
    "Malaya" := 4800000,
    "Netherlands" := 8900000,
    "New Zealand" := 1600000,
    "Norway" := 3000000,
    "Papua New Guinea" := 1000000,
    "Philippines" := 16700000,
    "Poland" := 35000000,
    "Romania" := 19900000,
    "Singapore" := 900000,
    "South Africa" := 10200000,
    "Soviet Union" := 168000000,
    "United Kingdom" := 47000000,
    "United States" := 131000000,
    "Yugoslavia" := 15400000
  ]

  /** Every country of the raw data has a 1939 population, so no record
      lacks one. */
  lemma PopulationsCover()
    ensures forall i :: 0 <= i < |RawData| ==> RawData[i].country in Pop1939
  {
  }

  /** "--" is the sentinel for an unknown count. */
  lemma UnknownText()
    ensures ParseDeathText("--") == Ok(None)
  {
    assert Text.Strip("--") == "--";
  }

  /** The row of Germany. */
  lemma GermanyRow()
    ensures RawData[16] == RawRow("Germany", "5,533,000", "6,600,000-8,800,000")
  {
  }

  /** Germany's military deaths, "5,533,000", are one exact count. */
  lemma GermanyMilitary()
    ensures ParseDeathText("5,533,000") == Ok(Some(Bounds(5533000.0, 5533000.0)))
  {
    Text5533000();
    ParsesAsCount("5,533,000", 5533000);
  }

  /** Germany's total deaths, "6,600,000-8,800,000", are a range. */
  lemma GermanyTotal()
    ensures ParseDeathText("6,600,000-8,800,000") == Ok(Some(Bounds(6600000.0, 8800000.0)))
  {
    Text6600000();
    Text8800000();
    ParsesAsRange("6,600,000-8,800,000", "6,600,000", "8,800,000", 6600000, 8800000);
  }

  /** A text that is a grouped number parses as that exact count. */
  lemma ParsesAsCount(t: string, n: nat)
    requires Grouped(n) == t
    ensures ParseDeathText(t) == Ok(Some(Bounds(n as real, n as real)))
  {
    ParseGroupedNumber(n);
  }

  /** A text that is two grouped numbers around a hyphen, outside the
      shorthand rule, parses as their range. */
  lemma ParsesAsRange(t: string, ta: string, tb: string, a: nat, b: nat)
    requires Grouped(a) == ta && Grouped(b) == tb && t == ta + "-" + tb
    requires a >= 1000 || b < 1000
    ensures ParseDeathText(t) == Ok(Some(Bounds(if a <= b then a as real else b as real,
                                                if a <= b then b as real else a as real)))
  {
    ParseGroupedRange(a, b);
  }

  lemma Text5533000()
    ensures Grouped(5533000) == "5,533,000"
  {
    assert Grouped(5533) == "5,533" by {
      assert Grouped(5) == "5";
      assert Pad3(533) == "533";
      GroupedThousands(5, 533);
    }
    assert Pad3(0) == "000";
    GroupedThousands(5533, 0);
  }

  lemma Text6600000()
    ensures Grouped(6600000) == "6,600,000"
  {
    assert Grouped(6600) == "6,600" by {
      assert Grouped(6) == "6";
      assert Pad3(600) == "600";
      GroupedThousands(6, 600);
    }
    assert Pad3(0) == "000";
    GroupedThousands(6600, 0);
  }

  lemma Text8800000()
    ensures Grouped(8800000) == "8,800,000"
  {
    assert Grouped(8800) == "8,800" by {
      assert Grouped(8) == "8";
      assert Pad3(800) == "800";
      GroupedThousands(8, 800);
    }
    assert Pad3(0) == "000";
    GroupedThousands(8800, 0);
  }

  /** Germany's record: 5,533,000 military deaths against 6.6 to 8.8
      million in total leave 1,067,000 to 3,267,000 civilian deaths,
      2,167,000 at the midpoint, in a population of 69 million. */
  lemma GermanyRecord()
    ensures DeriveRecord(RawData[16], Pop1939).Ok?
    ensures var r := DeriveRecord(RawData[16], Pop1939).value;
      && r.country == "Germany"
      && r.pop == Some(69000000)
      && r.military == Some(Estimate(Bounds(5533000.0, 5533000.0), 5533000.0))
      && r.total == Some(Estimate(Bounds(6600000.0, 8800000.0), 7700000.0))
      && r.civilian == Some(Estimate(Bounds(1067000.0, 3267000.0), 2167000.0))
  {
    GermanyRow();
    GermanyPopulation();
    GermanyMilitary();
    GermanyTotal();
    GermanyDerived(RawData[16], Pop1939);
  }

  lemma GermanyDerived(row: RawRow, pops: map<string, int>)
    requires row.country == "Germany" && Get(pops, "Germany") == Some(69000000)
    requires ParseDeathText(row.military) == Ok(Some(Bounds(5533000.0, 5533000.0)))
    requires ParseDeathText(row.total) == Ok(Some(Bounds(6600000.0, 8800000.0)))
    ensures DeriveRecord(row, pops).Ok?
    ensures var r := DeriveRecord(row, pops).value;
      && r.country == "Germany"
      && r.pop == Some(69000000)
      && r.military == Some(Estimate(Bounds(5533000.0, 5533000.0), 5533000.0))
      && r.total == Some(Estimate(Bounds(6600000.0, 8800000.0), 7700000.0))
      && r.civilian == Some(Estimate(Bounds(1067000.0, 3267000.0), 2167000.0))
  {
    var m, t := Bounds(5533000.0, 5533000.0), Bounds(6600000.0, 8800000.0);
    DeriveKnown(row, pops, m, t);
    GermanyEstimates();
  }

  /** Germany's midpoints and civilian estimate, from its parsed counts. */
  lemma GermanyEstimates()
    ensures var m, t := Bounds(5533000.0, 5533000.0), Bounds(6600000.0, 8800000.0);
      && Midpoint(m) == Estimate(m, 5533000.0)
      && Midpoint(t) == Estimate(t, 7700000.0)
      && Midpoint(CivilianBounds(m, t)) == Estimate(Bounds(1067000.0, 3267000.0), 2167000.0)
  {
    var m, t := Bounds(5533000.0, 5533000.0), Bounds(6600000.0, 8800000.0);
    assert CivilianBounds(m, t) == Bounds(1067000.0, 3267000.0) by {
      assert Surplus(m.hi, t.lo) == 1067000.0;
      assert Surplus(m.lo, t.hi) == 3267000.0;
    }
  }

  /** The row of French Indochina: no military figure, a shorthand total. */
  lemma IndochinaRow()
    ensures RawData[15] == RawRow("French Indochina", "--", "1-1,500,000")
  {
  }

  lemma IndochinaPopulation()
    ensures Get(Pop1939, "French Indochina") == Some(24000000)
  {
  }

  /** French Indochina's record: no military or civilian estimate, both
      labelled "Unknown"; total deaths of one to one and a half million,
      midpoint 1,250,000; a population of 24 million. */
  lemma IndochinaRecord()
    ensures DeriveRecord(RawData[15], Pop1939).Ok?
    ensures var r := DeriveRecord(RawData[15], Pop1939).value;
      && r.country == "French Indochina"
      && r.pop == Some(24000000)
      && r.military == None && r.civilian == None
      && r.total == Some(Estimate(Bounds(1000000.0, 1500000.0), 1250000.0))
      && r.militaryLabel == "Unknown" && r.civilianLabel == "Unknown"
  {
    IndochinaRow();
    IndochinaPopulation();
    UnknownText();
    IndochinaTotal();
    DeriveTotalOnly(RawData[15], Pop1939, Bounds(1000000.0, 1500000.0));
  }

  lemma GermanyPopulation()
    ensures Get(Pop1939, "Germany") == Some(69000000)
  {
  }

  /** A text that is one digit, a hyphen and a grouped seven-digit number
      reads the digit as that many millions. */
  lemma ParsesAsMillions(t: string, ta: string, tb: string, a: nat, b: nat)
    requires Grouped(a) == ta && Grouped(b) == tb && t == ta + "-" + tb
    requires 1 <= a < 10 && 1000000 <= b < 10000000
    ensures var x := (a * 1000000) as real;
      ParseDeathText(t) == Ok(Some(Bounds(if x <= b as real then x else b as real,
                                          if x <= b as real then b as real else x)))
  {
    MillionsShorthand(a, b);
    ParseShorthandRange(a, b);
  }

  /** A seven-digit number is a single digit followed by six zeros once it
      is padded to its own length. */
  lemma MillionsShorthand(a: nat, b: nat)
    requires 1 <= a < 10 && 1000000 <= b < 10000000
    ensures |NatToString(a)| <= |NatToString(b)|
    ensures ShorthandLeft(a, b) == (a * 1000000) as real
  {
    assert |NatToString(a)| == 1;
    assert |NatToString(b)| == 7 by {
      var s := NatToString(b);
      NatToStringValue(s);
      if |s| < 7 {
        Pow10Monotone(|s|, 6);
      } else if |s| > 7 {
        Pow10Monotone(7, |s| - 1);
      }
    }
    assert Pow10(6) == 1000000;
  }

  lemma Text4000000()
    ensures Grouped(4000000) == "4,000,000"
  {
    assert Grouped(4000) == "4,000" by {
      assert Grouped(4) == "4";
      assert Pad3(0) == "000";
      GroupedThousands(4, 0);
    }
    assert Pad3(0) == "000";
    GroupedThousands(4000, 0);
  }

  lemma Text1500000()
    ensures Grouped(1500000) == "1,500,000"
  {
    assert Grouped(1500) == "1,500" by {
      assert Grouped(1) == "1";
      assert Pad3(500) == "500";
      GroupedThousands(1, 500);
    }
    assert Pad3(0) == "000";
    GroupedThousands(1500, 0);
  }

  /** China's military deaths, "3-4,000,000": three to four million. */
  lemma ChinaMilitary()
    ensures ParseDeathText("3-4,000,000") == Ok(Some(Bounds(3000000.0, 4000000.0)))
  {
    Text4000000();
    assert Grouped(3) == "3";
    ParsesAsMillions("3-4,000,000", "3", "4,000,000", 3, 4000000);
  }

  /** French Indochina's total deaths, "1-1,500,000": one to one and a half
      million. */
  lemma IndochinaTotal()
    ensures ParseDeathText("1-1,500,000") == Ok(Some(Bounds(1000000.0, 1500000.0)))
  {
    Text1500000();
    assert Grouped(1) == "1";
    ParsesAsMillions("1-1,500,000", "1", "1,500,000", 1, 1500000);
  }

  /** Greece's military deaths, "20,000-35,000": both ends in full. */
  lemma GreeceMilitary()
    ensures ParseDeathText("20,000-35,000") == Ok(Some(Bounds(20000.0, 35000.0)))
  {
    Text20000();
    Text35000();
    ParsesAsRange("20,000-35,000", "20,000", "35,000", 20000, 35000);
  }

  lemma Text20000()
    ensures Grouped(20000) == "20,000"
  {
    assert Grouped(20) == "20";
    assert Pad3(0) == "000";
    GroupedThousands(20, 0);
  }

  lemma Text35000()
    ensures Grouped(35000) == "35,000"
  {
    assert Grouped(35) == "35";
    assert Pad3(0) == "000";
    GroupedThousands(35, 0);
  }
}

=== FILE: wrappers.dfy ===
/** Optional values and error-carrying results, used wherever the program
    lets a value be absent (`None` in Python) or raises an exception. */
module Wrappers {

  datatype Option<+T> = None | Some(value: T)

  /** `Ok` carries a value; `Err` carries the error the program would raise. */
  datatype Result<+T, +E> = Ok(value: T) | Err(error: E) {

    predicate IsFailure() {
      Err?
    }

    function PropagateFailure<U>(): Result<U, E>
      requires Err?
    {
      Err(error)
    }

    function Extract(): T
      requires Ok?
    {
      value
    }
  }

  /** Looks a key up in a map: Python's `dict.get`. */
  function Get<K, V>(m: map<K, V>, k: K): (r: Option<V>)
    ensures r.Some? <==> k in m
    ensures r.Some? ==> r.value == m[k]
  {
    if k in m then Some(m[k]) else None
  }

  /** Applies `f` to each element in order and stops at the first error:
      a loop that raises on the first bad element. */
  function MapResult<A, B, E>(xs: seq<A>, f: A -> Result<B, E>): (r: Result<seq<B>, E>)
    ensures r.Ok? <==> forall i :: 0 <= i < |xs| ==> f(xs[i]).Ok?
    ensures r.Ok? ==> |r.value| == |xs|
    ensures r.Ok? ==> forall i :: 0 <= i < |xs| ==> f(xs[i]) == Ok(r.value[i])
  {
    if xs == [] then Ok([])
    else
      assert forall i :: 1 <= i < |xs| ==> xs[i] == xs[1..][i - 1];
      var first :- f(xs[0]);
      var rest :- MapResult(xs[1..], f);
      Ok([first] + rest)
  }

  /** `f` succeeds on every element before `i`. */
  predicate OkBefore<A, B, E>(xs: seq<A>, f: A -> Result<B, E>, i: nat)
    requires i <= |xs|
  {
    forall j :: 0 <= j < i ==> f(xs[j]).Ok?
  }

  /** A failed `MapResult` carries the error of the first element that
      fails. */
  lemma {:induction false} MapResultFirstError<A, B, E>(xs: seq<A>, f: A -> Result<B, E>)
    requires MapResult(xs, f).Err?
    ensures exists i :: (0 <= i < |xs| && OkBefore(xs, f, i) &&
                         f(xs[i]) == Err(MapResult(xs, f).error))
  {
    if f(xs[0]).Err? {
      assert OkBefore(xs, f, 0);
    } else {
      MapResultFirstError(xs[1..], f);
      var i :| 0 <= i < |xs[1..]| && OkBefore(xs[1..], f, i) &&
        f(xs[1..][i]) == Err(MapResult(xs[1..], f).error);
      assert OkBefore(xs, f, i + 1) by {
        forall j | 0 <= j < i + 1
          ensures f(xs[j]).Ok?
        {
          if j > 0 { assert xs[j] == xs[1..][j - 1]; }
        }
      }
      assert xs[i + 1] == xs[1..][i];
    }
  }
}
